=== FILE: README.md ===
# Muawin portal core, modelled in Dafny

Muawin is a back-office portal. Its staff upload licence and permit documents per zone and branch, manage user accounts and open the modules they are registered for. This project models the parts of the portal that make decisions, as pure Dafny functions over immutable data. It then proves what those decisions guarantee.

- **File controller** (`FileStore`): files are kept in a store holding metadata records, blobs and the next blob id. The model covers:
  - the MIME-type whitelist;
  - the per-scope file number `(count + 1).toString().padStart(5, '0')`;
  - the server-side compression pass, which keeps the buffer;
  - listing, with a 404 when the scope is empty;
  - upload, which trims the name, writes the blob, then does an unawaited metadata save;
  - delete, which removes the first match, first the metadata and then the blob.
- **Document pages** (`DocumentPage`): the Punjab Food Authority licences page and the Cantt passes page are one model with two configurations, the file category and whether delete sends the token. The model covers:
  - the 10 MiB / 20 MiB size caps;
  - file-name normalisation;
  - the compression fallback;
  - upload progress;
  - the file search;
  - the fetch gate and reply handling;
  - the optimistic list update after a delete.
- **Users table** (`ActiveUsers`):
  - row and header selection;
  - the 5-character password generator over the 62-character alphabet;
  - the sequential bulk delete that stops at the first failure;
  - the password reset;
  - the user search;
  - loading, newest user first.
- **Module grids** (`ModulesGrid`):
  - The Vehicles grid filters subheadings by "<section>_<title>" grants.
  - The Security grid matches names with whitespace and '/' removed.
  - Both grids label tiles with the text after the first '_' and share the same tile-click behaviour.
- **Application shell** (`App`):
  - the global search over the 26-entry catalogue;
  - the dark-mode switch;
  - sign-in and sign-out, covering React state and local storage;
  - the route table, where `/login` is public, 48 pages are wrapped in the authentication check, and there is no catch-all route.
- **Task controller** (`Tasks`):
  - `addTask`'s required-field check;
  - `getAllTasks`'s zone and branch filter, with "All" as a wildcard;
  - the 404 rules of get, update and delete by id.

Shared pieces:
- `Seqs`: `filter`, `map`, `reverse`, order-preserving sub-lists.
- `Strings`: the JavaScript string operations the code uses, namely `trim`, `toLowerCase`, `includes`, `split`, `padStart`, `replace(/\s+/g, '_')` and decimal conversion.
- `Session`: the token test and the shape of the signed-in user.
- `Wrappers`: `Option`, standing for `undefined`/`null`.

Anything the code cannot decide for itself becomes a parameter:
- the browser's stored token;
- each HTTP reply;
- success or failure of every database, GridFS and network call;
- the compressor's outcome;
- the random draws.

## Model

| member | source | states |
|---|---|---|
| FileStore.FileFilter | backend/controllers/fileController.js:10-28 | a file is accepted exactly when its MIME type is one of the nine whitelisted types; anything else is rejected with the fixed "Invalid file type" message |
| FileStore.AllowedImagesAreExactly | backend/controllers/fileController.js:11-21 | a type is whitelisted and starts with "image/" exactly when it is PNG, JPEG or WebP |
| FileStore.FileNumber | backend/controllers/fileController.js:32-36 | the file number is all digits, at least five long, exactly five while the count is below 99999, and denotes the scope's record count plus one |
| FileStore.FileNumberIsPadStart | backend/controllers/fileController.js:34 | the number equals the library padding of the plain decimal string with '0' to width 5 |
| FileStore.NextFileNumber | backend/controllers/fileController.js:32-36 | the next number counts only the records of the upload's own scope, plus one |
| FileStore.FileNumberInjective | backend/controllers/fileController.js:32-36 | different counts give different file numbers |
| FileStore.ApplyServerCompression | backend/controllers/fileController.js:39-81 | every branch hands back the original buffer and reports that no compression was applied |
| FileStore.ListFiles | backend/controllers/fileController.js:84-98 | a failed metadata query answers 500 and only it does; otherwise the answer is 404 exactly when no record has the category, zone and branch, and else lists exactly that scope's records in store order, every copy kept |
| FileStore.UploadFile | backend/controllers/fileController.js:101-161 | 201 iff a file is present, its type is allowed and the blob write succeeds; a missing file gives 500, a rejected type gives the filter's error, and an allowed file whose count or blob write fails gives 500; every failure leaves the store unchanged; the store invariant is kept |
| FileStore.UploadWritesBlobThenRecord | backend/controllers/fileController.js:104-153 | an accepted upload writes the bytes under a fresh id with the trimmed name; the record holding name, type, scope, id and the next number is appended only if the unawaited save succeeds |
| FileStore.ListedAfterUpload | backend/controllers/fileController.js:84-161 | after a fully successful upload, listing the scope answers 200 and includes the new record |
| FileStore.FindFirst | backend/controllers/fileController.js:200 | `findOne` finds nothing iff no record matches; otherwise it finds the first matching record |
| FileStore.StoreUpload | backend/controllers/fileController.js:123-153 | writing the blob under the next id, with or without the record, keeps the store invariant |
| FileStore.RemoveKeepsValid | backend/controllers/fileController.js:210-227 | removing one record, and optionally its blob, keeps the store invariant |
| FileStore.DeleteFile | backend/controllers/fileController.js:192-232 | a failed lookup gives 500 with no change; otherwise 404 with no change iff no record in the scope carries the trimmed name; a matching record is never answered 404: the first one is removed, a failed metadata delete gives 500 with no change, a failed GridFS delete gives 500 with the record gone and the blob kept, success removes both; the invariant is kept |
| FileStore.RunPreservesValid | backend/controllers/fileController.js:101-232 | any sequence of requests, whichever storage steps fail, keeps the store invariant |
| FileStore.UploadAppends | backend/controllers/fileController.js:101-161 | a fully successful upload appends one record with the trimmed name and the scope's next number, and the scope then holds one record more |
| FileStore.UploadAllExtends | backend/controllers/fileController.js:101-161 | successive successful uploads keep the existing records as a prefix and append one record each |
| FileStore.MetadataNeverDangles | backend/controllers/fileController.js:101-232 | after any sequence of uploads, deletes and listings from an empty store, every metadata record points at an existing blob |
| FileStore.UploadsNumberedInOrder | backend/controllers/fileController.js:32-36 | successive successful uploads into one scope append one record each, carrying the trimmed names and consecutive numbers after the scope's existing count |
| FileStore.KthUploadGetsNumberK | backend/controllers/fileController.js:32-36 | into an empty store, the k-th upload gets the number denoting k |
| FileStore.FileNumberReissued | backend/controllers/fileController.js:32-36 | numbers are counts, not sequence values: after two uploads, deleting the first and uploading again issues "00002" twice |
| FileStore.UploadStepIsAccepted | backend/controllers/fileController.js:101-161 | a fully successful upload of an allowed type answers 201 with the fresh id and leaves the store with blob and record added |
| DocumentPage.MaxSize | frontend/src/pages/Licenses/PunjabFoodAuthority/PunjabFoodAuthority.jsx:48-54 | the size cap is the 10 MiB image cap exactly for image files and the 20 MiB document cap otherwise |
| DocumentPage.NormalizeFileName | frontend/src/pages/Vehicles/CanttPasses/CanttPasses.jsx:169 | the normalised name contains no whitespace and is no longer than the original |
| Strings.CollapseSpacesSplit | frontend/src/pages/Vehicles/CanttPasses/CanttPasses.jsx:169 | a name whose first part ends in a non-whitespace character normalises part by part: no whitespace run is merged across that boundary |
| Strings.CollapseSpacesRun | frontend/src/pages/Licenses/PunjabFoodAuthority/PunjabFoodAuthority.jsx:185 | every maximal run of whitespace, however long, becomes exactly one underscore and the text on either side is normalised on its own |
| DocumentPage.HandleFileSelect | frontend/src/pages/Licenses/PunjabFoodAuthority/PunjabFoodAuthority.jsx:168-240 | for a picked file: too large iff over the cap, reported with 10 or 20 MB; otherwise a login prompt iff there is no token, and a send iff there is one; an image is compressed, or sent as it is when the compressor fails; a document is sent as it is |
| DocumentPage.SizeCapIsInclusive | frontend/src/pages/Licenses/PunjabFoodAuthority/PunjabFoodAuthority.jsx:175-180 | a file exactly at the cap is sent; one byte more is refused |
| DocumentPage.DocumentsSkipCompression | frontend/src/pages/Licenses/PunjabFoodAuthority/PunjabFoodAuthority.jsx:205-231 | for a non-image file, the compressor's outcome makes no difference |
| DocumentPage.StoredNameIsNormalized | frontend/src/pages/Licenses/PunjabFoodAuthority/PunjabFoodAuthority.jsx:185-296 | the server stores the page's normalised name unchanged, and that name reads like the original once whitespace and '_' are ignored |
| DocumentPage.Progress | frontend/src/pages/Licenses/PunjabFoodAuthority/PunjabFoodAuthority.jsx:250-255 | the percentage is `loaded * 100 / total` rounded half up |
| DocumentPage.OnProgress | frontend/src/pages/Licenses/PunjabFoodAuthority/PunjabFoodAuthority.jsx:250-255 | with a computable length the bar shows the rounded percentage of the bytes sent; without one the shown percentage does not change |
| DocumentPage.ProgressInRange | frontend/src/pages/Licenses/PunjabFoodAuthority/PunjabFoodAuthority.jsx:250-255 | progress lies within 0..100; it is 0 at the start and 100 at the end |
| DocumentPage.ProgressMonotone | frontend/src/pages/Licenses/PunjabFoodAuthority/PunjabFoodAuthority.jsx:250-255 | more bytes sent never lowers the percentage |
| DocumentPage.UploadSuccessMeansCreated | frontend/src/pages/Licenses/PunjabFoodAuthority/PunjabFoodAuthority.jsx:257-273 | the page counts an upload as successful exactly when the server answered 201 |
| DocumentPage.FilterFiles | frontend/src/pages/Licenses/PunjabFoodAuthority/PunjabFoodAuthority.jsx:419-422 | a file is shown iff its name or its number includes the query, ignoring case; the shown files keep their order and every copy |
| DocumentPage.EmptyQueryShowsAll | frontend/src/pages/Licenses/PunjabFoodAuthority/PunjabFoodAuthority.jsx:419-422 | an empty search shows every file |
| DocumentPage.NumberFindsFile | frontend/src/pages/Vehicles/CanttPasses/CanttPasses.jsx:344-347 | searching a file's own number finds it |
| DocumentPage.SearchIgnoresQueryCase | frontend/src/pages/Licenses/PunjabFoodAuthority/PunjabFoodAuthority.jsx:419-422 | the query's case does not change the result |
| DocumentPage.FetchFiles | frontend/src/pages/Licenses/PunjabFoodAuthority/PunjabFoodAuthority.jsx:110-149 | no request and no change unless zone and branch are chosen; with no token, no request and an empty list; otherwise a request for the trimmed zone and branch, where 2xx replaces the list, 404 empties it, and any other status or a throw keeps it |
| DocumentPage.FetchShowsScopeRecords | frontend/src/pages/Licenses/PunjabFoodAuthority/PunjabFoodAuthority.jsx:110-149 | against the file controller, a fetch shows exactly the scope's records, or nothing when the scope is empty; when the controller answers 500 the list the page held stays |
| DocumentPage.UploadAndFetchScopesAgree | frontend/src/pages/Licenses/PunjabFoodAuthority/PunjabFoodAuthority.jsx:126-127 | upload and fetch address the same scope exactly when neither zone nor branch has whitespace at its ends |
| DocumentPage.PaddedZoneHidesUploads | frontend/src/pages/Licenses/PunjabFoodAuthority/PunjabFoodAuthority.jsx:126-284 | uploads go to the untrimmed zone but fetches ask for the trimmed one, so a file uploaded under " Lahore" is not listed back |
| DocumentPage.DeleteConfirm | frontend/src/pages/Licenses/PunjabFoodAuthority/PunjabFoodAuthority.jsx:305-355 | a request is sent iff the page needs no token or a token is present; it names the trimmed file; on 2xx every file with that name leaves the list, order and copies of the rest kept; on failure the list is unchanged |
| DocumentPage.DeleteTokenPolicy | frontend/src/pages/Vehicles/CanttPasses/CanttPasses.jsx:288-329 | the Cantt passes page sends its delete without a token; the licences page sends nothing without one |
| DocumentPage.DeleteMatchesServerForUniqueNames | frontend/src/pages/Licenses/PunjabFoodAuthority/PunjabFoodAuthority.jsx:331-334 | when at most one record in the scope has the name, the list the page keeps after a successful delete is the list the server would now return |
| DocumentPage.DeletedIndex | backend/controllers/fileController.js:192-232 | a successful delete of a trimmed name removed the first record of the scope with that name |
| DocumentPage.RemoveUniqueMatch | frontend/src/pages/Licenses/PunjabFoodAuthority/PunjabFoodAuthority.jsx:331-334 | when only one record of the store has the name in the scope, removing it leaves the scope's listing equal to the old listing with that name filtered out, as the page filters it |
| DocumentPage.DuplicateNamesDiverge | frontend/src/pages/Licenses/PunjabFoodAuthority/PunjabFoodAuthority.jsx:331-334 | with two same-named files, the page drops both while the server removed only the first |
| ActiveUsers.ToggleSelection | frontend/src/pages/UserManagement/ActiveUsers.jsx:177-183 | a toggled id is selected afterwards iff it was not before; no other id changes; an id is added at the end, and a selected one is removed (every copy) without reordering the rest |
| ActiveUsers.ToggleTwice | frontend/src/pages/UserManagement/ActiveUsers.jsx:177-183 | toggling twice keeps the same selected ids; an id that was not selected leaves the selection exactly as it was, one that was selected moves to the end |
| ActiveUsers.SelectAll | frontend/src/pages/UserManagement/ActiveUsers.jsx:185-191 | when the selection has as many entries as there are users it is cleared; otherwise every user's id is selected, in table order |
| ActiveUsers.SelectAllFlipsHeader | frontend/src/pages/UserManagement/ActiveUsers.jsx:185-191 | clicking the header checkbox checks it when it was unchecked and there are users, and clears the selection when it was checked |
| ActiveUsers.StaleSelectionChecksHeader | frontend/src/pages/UserManagement/ActiveUsers.jsx:400 | the header compares counts only, so a selection holding an id that is not in the table can show as "all selected" |
| ActiveUsers.CharsetLayout | frontend/src/pages/UserManagement/ActiveUsers.jsx:193-200 | the alphabet is 62 characters: a–z, then A–Z, then 0–9 |
| ActiveUsers.CharsetIndex | frontend/src/pages/UserManagement/ActiveUsers.jsx:193-200 | every alphanumeric character has a position in the alphabet |
| ActiveUsers.GeneratePassword | frontend/src/pages/UserManagement/ActiveUsers.jsx:193-200 | the password has five characters, each the alphabet's character at the corresponding draw, so each is alphanumeric |
| ActiveUsers.DrawsFor | frontend/src/pages/UserManagement/ActiveUsers.jsx:193-200 | every five-character alphanumeric string comes from some draws, so the generator can produce any of them |
| ActiveUsers.DeleteUsers | frontend/src/pages/UserManagement/ActiveUsers.jsx:202-226 | with no selection or no token nothing is sent; otherwise deletes go out one by one in selection order; the first failure stops the loop and leaves table and selection unchanged; full success drops the selected users, keeping every copy of the others in order, and clears the selection |
| ActiveUsers.ServerDeleteEachDropsSelected | frontend/src/pages/UserManagement/ActiveUsers.jsx:212-218 | one DELETE request per selected id, each removing the user with that id, leaves exactly the users whose id was not selected |
| ActiveUsers.DeleteUsersMatchesServer | frontend/src/pages/UserManagement/ActiveUsers.jsx:202-226 | after a fully successful bulk delete the table equals what reloading from the server would show: the server's remaining users after one removal per request, newest first |
| ActiveUsers.PartialDeleteLeavesStaleRows | frontend/src/pages/UserManagement/ActiveUsers.jsx:212-225 | when a later delete fails, the table still shows a user the server already deleted |
| ActiveUsers.ResetPassword | frontend/src/pages/UserManagement/ActiveUsers.jsx:228-261 | only the reset user's shown password changes, to the one the server returned; every other field and user is unchanged; with no token or a throw nothing changes |
| ActiveUsers.ResetPasswordIdempotent | frontend/src/pages/UserManagement/ActiveUsers.jsx:250-254 | applying the same reply twice equals applying it once; an unknown id changes nothing |
| ActiveUsers.FilterUsers | frontend/src/pages/UserManagement/ActiveUsers.jsx:263-266 | a user is shown iff the name or e-mail includes the term, ignoring case; order and copies are kept |
| ActiveUsers.FilterUsersLaws | frontend/src/pages/UserManagement/ActiveUsers.jsx:263-266 | an empty term shows everyone, and the term's case does not matter |
| ActiveUsers.LoadUsers | frontend/src/pages/UserManagement/ActiveUsers.jsx:89-109 | with no token the table is untouched; a throw empties it; a reply shows the server's users in reverse order |
| ActiveUsers.LoadUsersReversesServerOrder | frontend/src/pages/UserManagement/ActiveUsers.jsx:102 | reversing the shown table gives the server's order back, and the first row is the server's last user |
| ModulesGrid.NamePrefix | frontend/src/pages/Vehicles/Modulesgrid/Modulesgrid.jsx:55-57 | the section part of a name is its longest prefix without '_': the whole name, or the text before the first '_' |
| ModulesGrid.Label | frontend/src/pages/Vehicles/Modulesgrid/Modulesgrid.jsx:137 | a label exists iff the name contains '_'; it is the text right after the first '_' up to the next '_' or the end |
| ModulesGrid.SplitSectionName | frontend/src/pages/Vehicles/Modulesgrid/Modulesgrid.jsx:55-57 | splitting "<section>_<title>" at '_' gives the section and the title back, for names without '_' |
| ModulesGrid.SectionTileLabel | frontend/src/pages/Vehicles/Modulesgrid/Modulesgrid.jsx:137 | a tile named "<section>_<title>" is labelled with its title and belongs to its section |
| ModulesGrid.VehicleLabels | frontend/src/pages/Vehicles/Modulesgrid/Modulesgrid.jsx:21-50 | the three Vehicles tiles are labelled Maintenance, Token Taxes and Route Permits |
| ModulesGrid.VehicleTilesInSection | frontend/src/pages/Vehicles/Modulesgrid/Modulesgrid.jsx:21-57 | every Vehicles tile's name starts with the Vehicles section, so the subheading grants are looked up under "Vehicles_<title>" |
| ModulesGrid.SecurityLabel | frontend/src/pages/Security/Modulesgrid/Modulesgrid.jsx:110 | the Security tile is labelled Guard Training |
| ModulesGrid.GrantedTiles | frontend/src/pages/Vehicles/Modulesgrid/Modulesgrid.jsx:52-64 | a tile is kept iff some subheading survives the grant filter; kept tiles keep their order |
| ModulesGrid.VehicleGrid | frontend/src/pages/Vehicles/Modulesgrid/Modulesgrid.jsx:17-64 | no user gives an empty grid; a user whose module list is not an array fails to render; otherwise the grid shows the granted tiles |
| ModulesGrid.SubheadingSurvivesIff | frontend/src/pages/Vehicles/Modulesgrid/Modulesgrid.jsx:55-57 | a subheading survives iff "<section>_<title>" or the tile's full name is registered; survivors keep their order |
| ModulesGrid.TileShownIff | frontend/src/pages/Vehicles/Modulesgrid/Modulesgrid.jsx:52-64 | a tile appears iff at least one of its subheadings is granted |
| ModulesGrid.FullNameGrantsWholeTile | frontend/src/pages/Vehicles/Modulesgrid/Modulesgrid.jsx:55-57 | registering a tile's full name shows all its subheadings |
| ModulesGrid.GrantedTilesKeepOrder | frontend/src/pages/Vehicles/Modulesgrid/Modulesgrid.jsx:52-64 | the shown tile names appear in catalogue order |
| ModulesGrid.Strip | frontend/src/pages/Security/Modulesgrid/Modulesgrid.jsx:31 | stripping keeps exactly the characters that are neither whitespace nor '/' |
| ModulesGrid.SecurityGrid | frontend/src/pages/Security/Modulesgrid/Modulesgrid.jsx:17-35 | no user gives an empty grid; a non-array module list fails to render; otherwise a tile is shown iff some registered name equals its name after both are stripped; catalogue order is kept |
| ModulesGrid.StrippedMatchIff | frontend/src/pages/Security/Modulesgrid/Modulesgrid.jsx:30-35 | the Security filter keeps a tile iff some registered name equals its name once both are stripped |
| ModulesGrid.StripIdempotent | frontend/src/pages/Security/Modulesgrid/Modulesgrid.jsx:31 | stripping twice equals stripping once |
| ModulesGrid.StripIgnoresInsertedSeparator | frontend/src/pages/Security/Modulesgrid/Modulesgrid.jsx:31 | inserting whitespace or '/' anywhere in a registered name does not change whether it matches |
| ModulesGrid.TileClick | frontend/src/pages/Security/Modulesgrid/Modulesgrid.jsx:43-56 | clicking a tile with subheadings expands it, or collapses it when it is already open, and never navigates; a tile without subheadings leaves the expansion alone and navigates to its path only on the Security grid |
| ModulesGrid.ClickTwice | frontend/src/pages/Vehicles/Modulesgrid/Modulesgrid.jsx:72-76 | clicking the same tile twice restores the expansion when nothing or that tile was open, and leaves every tile closed when another was open |
| ModulesGrid.ShownTilesClick | frontend/src/pages/Vehicles/Modulesgrid/Modulesgrid.jsx:72-83 | clicking a shown Vehicles tile never navigates; clicking a shown Security tile goes to /Security/GuardTraining |
| App.AnyIncludesIff | frontend/src/App.js:177-179 | the access check holds iff some registered module name includes the item's name |
| App.SearchIn | frontend/src/App.js:170-186 | an empty query or a user without a module array gives no results; otherwise an item is found iff the user may open it and its name includes the query, ignoring case; results keep catalogue order and every copy |
| App.SearchFindsIff | frontend/src/App.js:170-186 | for a non-empty query, an item is found iff it is in the item list, its lower-cased name includes the lower-cased query, and some registered module includes its name, case-sensitively |
| App.SearchIgnoresQueryCase | frontend/src/App.js:173-180 | the query's case does not change the results |
| App.MoreModulesFindMore | frontend/src/App.js:177-179 | registering more modules never removes a result, and results keep their order |
| App.MatchesMonotone | frontend/src/App.js:175-181 | over any item list, the matches for fewer modules form a sub-list of the matches for more |
| App.SubmoduleGrantsSection | frontend/src/App.js:177-179 | a grant "<section>_<title>" makes both the section's item and the title's item pass the access check |
| App.ToggleDarkMode | frontend/src/App.js:150-152 | the toggle always flips the mode |
| App.ThemeMode | frontend/src/App.js:191 | the palette is "dark" exactly in dark mode, and "light" otherwise |
| App.ToggleTwice | frontend/src/App.js:150-152 | two toggles restore the theme |
| App.StoredToken | frontend/src/App.js:154-168 | a token is read exactly when the "token" key is stored |
| App.Login | frontend/src/App.js:154-159 | signing in sets the flag and user, and stores the token and serialised user; every other key is unchanged |
| App.Logout | frontend/src/App.js:161-168 | signing out clears the flag and user, removes both keys and goes to /login; every other key is unchanged |
| App.LoginThenLogout | frontend/src/App.js:154-168 | signing in and straight out leaves storage as before, minus the two session keys |
| App.LogoutSilencesPages | frontend/src/App.js:161-168 | after sign-out the token-gated fetches, deletes and user loads send nothing, while the Cantt passes delete still goes out |
| App.AppRoutes | frontend/src/App.js:239-748 | the table is /login (public) followed by the 48 page routes, all guarded |
| App.RouteKey | frontend/src/App.js:239-748 | the matching key drops at most one trailing '/' |
| App.RouteKeyIff | frontend/src/App.js:239-748 | two addresses share a key exactly when, without one trailing '/', they have equal length and agree character by character up to ASCII case |
| App.RouteKeyLaws | frontend/src/App.js:239-748 | the key ignores the address's case and one trailing '/' |
| App.FindRoute | frontend/src/App.js:239-748 | no route is found iff no route's key equals the given key; otherwise the first route with that key is found |
| App.Render | frontend/src/App.js:239-748 | an address matching no route renders nothing, since there is no catch-all; otherwise the first route whose key matches decides: an unguarded one shows its public page whatever the sign-in state, a guarded one shows its own page when signed in and redirects to /login when signed out |
| App.SignedOutSeesOnlyLogin | frontend/src/App.js:241-745 | a signed-out visitor sees the sign-in page, a redirect to it, or nothing |
| App.GuardedPageRenders | frontend/src/App.js:241-745 | each guarded path redirects when signed out; when signed in it renders the page of the earliest guarded path sharing its key (itself when the keys are distinct); /login always renders |
| Tasks.Status | backend/controllers/taskController.js:4-111 | a reply is sent with 400 exactly for missing fields, 404 exactly for an unknown id and 500 exactly for a failed database call |
| Tasks.FindTask | backend/controllers/taskController.js:56-100 | no task is found iff no task has the id; otherwise the first task with that id is found |
| Tasks.AddTask | backend/controllers/taskController.js:4-28 | 400 with nothing saved iff one of taskName, date, deadline, zone or branch is missing or empty; otherwise 201 with exactly that task appended under a fresh id, or 500 with no change when the save fails |
| Tasks.AddTaskKeepsValid | backend/controllers/taskController.js:4-28 | adding keeps ids unique, and a created task has all five fields non-empty |
| Tasks.Constraint | backend/controllers/taskController.js:36-41 | a parameter constrains the query iff it is given, non-empty and not "All" |
| Tasks.GetAllTasks | backend/controllers/taskController.js:31-51 | a task is listed iff it matches the zone constraint and the branch constraint, in store order and with every copy; a failed query gives 500 |
| Tasks.WildcardListsAll | backend/controllers/taskController.js:34-44 | with neither parameter usable, every task is listed |
| Tasks.ConstraintsCompose | backend/controllers/taskController.js:36-41 | filtering by zone and branch together equals filtering by zone, then by branch |
| Tasks.ListAfterAdd | backend/controllers/taskController.js:4-44 | after an add, the listing is the old listing followed by the new task when it passes the zone and branch filter, and unchanged otherwise |
| Tasks.GetTaskById | backend/controllers/taskController.js:54-69 | 500 iff the query fails; otherwise 404 iff no task has the id, and a present id is always found, answering a task with that id |
| Tasks.Apply | backend/controllers/taskController.js:74-80 | every field the update body carries replaces the stored value and every field it leaves out keeps the stored one; the id stays |
| Tasks.ApplyIdempotent | backend/controllers/taskController.js:74-80 | applying the same update body twice gives the same task as applying it once |
| Tasks.UpdateTask | backend/controllers/taskController.js:72-93 | 500 with no change iff the call fails; otherwise 404 with no change iff no task has the id, and a present id is always updated: that task takes the body's given fields, keeps the rest, and is returned as it is after the update |
| Tasks.DeleteTask | backend/controllers/taskController.js:96-111 | 500 with no change iff the call fails; otherwise 404 with no change iff no task has the id, and a present id is always removed: exactly one task carrying it leaves the store |
| Tasks.UpdateKeepsValid | backend/controllers/taskController.js:72-93 | updates keep ids unique |
| Tasks.DeleteKeepsValid | backend/controllers/taskController.js:96-111 | deletes keep ids unique |
| Tasks.AddThenGet | backend/controllers/taskController.js:4-69 | a created task is found by its id |
| Tasks.UpdateThenGet | backend/controllers/taskController.js:54-93 | reading after an update returns the record the update answered with |
| Tasks.UpdateIdempotent | backend/controllers/taskController.js:72-93 | sending the same update twice equals sending it once |
| Tasks.DeleteThenGet | backend/controllers/taskController.js:54-111 | after a delete, reading the id answers 404 |

## Left out

- I/O:
  - multer, GridFS streaming, HTTP, XHR and fetch are abstract store transitions and reply parameters.
  - localStorage is a map.
  - Logging, MUI rendering and the drawer state are left out.
- `downloadFile` in the file controller is outside the modelled core.
- announcementController.js and the Designation model are outside the modelled core. Both are plain database calls without logic of their own.
- FileStore.DeleteFile: the name is trimmed, but `decodeURIComponent` is treated as the identity.
  - The page encodes the name and the router decodes it, so the two cancel.
  - Names that contain '%' sequences are not modelled.
- FileStore.UploadFile: a multer rejection is modelled as a 500 carrying the filter's message, the default Express error handling.
  - The unawaited metadata save is a parameter. The response does not depend on it.
- FileStore.FileRecord: the `lastModified` timestamp the upload writes from the clock (fileController.js:144) is not a field, since clocks are outside the model and nothing reads it back.
- DocumentPage.HandleFileSelect: compressorjs, with quality 0.8 and a 1920×1080 bound, is an opaque step that either yields a file or fails. Its image maths is not modelled.
- DocumentPage.Progress: requires a positive total.
  - A computable length of 0, where JavaScript would produce NaN, is not modelled.
  - `Math.round` is modelled for the non-negative values that occur.
  - The MB display strings and `toFixed` formatting are float formatting and are left out.
- ActiveUsers.GeneratePassword: `Math.random` is replaced by the list of draws, one index per character.
- ActiveUsers: the reset button is enabled only when exactly one user is selected. This is a rendering condition and is not modelled.
- App.Login: the session timeout, and restoring `isAuthenticated` on reload, are not modelled. The flag starts false on every reload even when a token is stored.
- App.SearchIn, ActiveUsers.FilterUsers and DocumentPage.FilterFiles: `toLowerCase` is modelled on ASCII letters only.
- App.RouteKey: React Router's matching is modelled as a case-insensitive comparison that ignores a trailing '/', with the first matching route winning.
  - React Router actually ranks routes by specificity.
  - Dynamic segments and nested routes are not modelled; the table has none.
- App.GuardedPageRenders: the 49 keys of the route table are pairwise distinct, but the model does not prove it over the literal table. So it does not conclude that each guarded path opens its own page rather than that of an earlier path with the same key, nor that no guarded key equals "/login".
- Tasks.GetTaskById, Tasks.UpdateTask, Tasks.DeleteTask: ids are natural numbers.
  - A malformed ObjectId makes Mongoose throw. That case is the failure parameter, which gives 500.
  - Schema validation, which Mongoose does not run on update, and timestamps are not modelled.
  - A field missing from an update body keeps its stored value, because Mongoose drops undefined keys.
- Tasks.AddTask: the Task schema is not part of this model. Only the controller's own field check is modelled.
- Concurrency between requests, and React's batching of state updates, are not modelled. Each handler runs to completion on the state it read.

=== FILE: active_users.dfy ===
/** The active users table: row selection, bulk delete, password reset,
    search and loading. The server and `Math.random` are parameters: a
    request's outcome is given, and the password generator is handed the
    character indices the random source drew. */
module ActiveUsers {
  import opened Wrappers
  import opened Seqs
  import opened Strings
  import opened Session

  type UserId = string

  /** A row of the table. `plainPassword` is the last generated password,
      when the server has sent one. */
  datatype User = User(id: UserId, name: string, email: string, branch: string, role: string,
                       plainPassword: Option<string>)

  function UserIdOf(u: User): UserId
  {
    u.id
  }

  // ---------------------------------------------------------------------
  // Selection

  function Except(id: UserId): UserId -> bool
  {
    (x: UserId) => x != id
  }

  /** `handleSelectUser`: a selected id is dropped (every copy of it), an
      unselected one is appended. */
  function ToggleSelection(selected: seq<UserId>, id: UserId): (r: seq<UserId>)
    ensures id in r <==> id !in selected
    ensures forall x :: x != id ==> (x in r <==> x in selected)
    ensures id !in selected ==> |r| == |selected| + 1 && r[..|selected|] == selected
    ensures id in selected ==> IsSubsequence(r, selected) && r == Filter(selected, Except(id))
  {
    if id in selected then Filter(selected, Except(id)) else selected + [id]
  }

  /** Toggling twice restores the selection. An id that was not selected
      leaves no trace; one that was selected comes back at the end. */
  lemma ToggleTwice(selected: seq<UserId>, id: UserId)
    ensures id !in selected ==> ToggleSelection(ToggleSelection(selected, id), id) == selected
    ensures id in selected ==>
      ToggleSelection(ToggleSelection(selected, id), id) == Filter(selected, Except(id)) + [id]
    ensures forall x :: x in ToggleSelection(ToggleSelection(selected, id), id) <==> x in selected
  {
    if id !in selected {
      FilterAppend(selected, [id], Except(id));
      FilterKeepsAll(selected, Except(id));
    }
  }

  /** `handleSelectAllUsers`: a selection as long as the list is cleared;
      any other selection becomes every listed id, in list order. */
  function SelectAll(selected: seq<UserId>, users: seq<User>): (r: seq<UserId>)
    ensures |selected| == |users| ==> r == []
    ensures |selected| != |users| ==>
      |r| == |users| && forall i :: 0 <= i < |users| ==> r[i] == users[i].id
  {
    if |selected| == |users| then [] else Map(users, UserIdOf)
  }

  /** The header checkbox. */
  predicate HeaderChecked(selected: seq<UserId>, users: seq<User>)
  {
    |selected| == |users| && |users| > 0
  }

  /** Select-all flips the header checkbox: from unchecked it checks it
      (when there is anyone to select) and selects every row; from checked
      it clears the selection. */
  lemma SelectAllFlipsHeader(selected: seq<UserId>, users: seq<User>)
    ensures !HeaderChecked(selected, users) && |users| > 0 ==>
      HeaderChecked(SelectAll(selected, users), users)
      && forall u :: u in users ==> u.id in SelectAll(selected, users)
    ensures HeaderChecked(selected, users) ==> SelectAll(selected, users) == []
  {
    if !HeaderChecked(selected, users) && |users| > 0 {
      forall u | u in users ensures u.id in SelectAll(selected, users) {
        var i :| 0 <= i < |users| && users[i] == u;
        assert SelectAll(selected, users)[i] == u.id;
      }
    }
  }

  /** The test is on lengths only: a selection of ids that are no longer
      listed checks the header as if every row were selected. */
  lemma StaleSelectionChecksHeader()
    ensures var users := [User("a", "A", "a@x", "b", "r", None)];
      var selected := ["gone"];
      HeaderChecked(selected, users) && users[0].id !in selected && SelectAll(selected, users) == []
  {
  }

  // ---------------------------------------------------------------------
  // Password generation

  const PasswordLength: nat := 5

  /** The `i`-th character of the generator's alphabet: lower-case letters,
      then upper-case letters, then digits. */
  function CharsetChar(i: nat): (c: char)
    requires i < 62
  {
    if i < 26 then ('a' as int + i) as char
    else if i < 52 then ('A' as int + (i - 26)) as char
    else ('0' as int + (i - 52)) as char
  }

  /** The generator's alphabet, as the page spells it out. */
  const Charset: string := "abcdefghijklmnopqrstuvwxyz" + "ABCDEFGHIJKLMNOPQRSTUVWXYZ" + "0123456789"

  predicate IsAlphanumeric(c: char)
  {
    'a' <= c <= 'z' || 'A' <= c <= 'Z' || '0' <= c <= '9'
  }

  /** The alphabet is the 62 ASCII letters and digits: lower-case letters,
      then upper-case letters, then digits, each run in code-point order. */
  lemma CharsetLayout(i: nat)
    requires i < 62
    ensures |Charset| == 62
    ensures Charset[i] == CharsetChar(i)
    ensures IsAlphanumeric(Charset[i])
  {
    if i < 26 {
      LowerRun(i);
    } else if i < 52 {
      UpperRun(i);
    } else {
      DigitRun(i);
    }
  }

  lemma LowerRun(i: nat)
    requires i < 26
    ensures Charset[i] as int == 'a' as int + i
  {
    RunAt(0, "abcdefghijklmnopqrstuvwxyz", 'a', i);
  }

  lemma UpperRun(i: nat)
    requires 26 <= i < 52
    ensures Charset[i] as int == 'A' as int + (i - 26)
  {
    RunAt(26, "ABCDEFGHIJKLMNOPQRSTUVWXYZ", 'A', i);
  }

  lemma DigitRun(i: nat)
    requires 52 <= i < 62
    ensures Charset[i] as int == '0' as int + (i - 52)
  {
    RunAt(52, "0123456789", '0', i);
  }

  /** One run of the alphabet, starting at position `start`. */
  lemma RunAt(start: nat, run: string, first: char, i: nat)
    requires |Charset| == 62 && start <= i < start + |run| <= 62
    requires Charset[start..start + |run|] == run
    requires forall k :: 0 <= k < |run| ==> run[k] as int == first as int + k
    ensures Charset[i] as int == first as int + (i - start)
  {
    assert Charset[i] == run[i - start];
  }

  /** Position of a character in a run of consecutive code points. */
  lemma LetterAt(run: string, first: char, i: nat)
    requires i < |run| && forall k :: 0 <= k < |run| ==> run[k] as int == first as int + k
    ensures run[i] as int == first as int + i
  {
  }

  /** Where an alphanumeric character sits in the alphabet. */
  function CharsetIndex(c: char): (i: nat)
    requires IsAlphanumeric(c)
    ensures i < |Charset| && Charset[i] == c
  {
    var i := if 'a' <= c <= 'z' then c as int - 'a' as int
             else if 'A' <= c <= 'Z' then 26 + (c as int - 'A' as int)
             else 52 + (c as int - '0' as int);
    CharsetLayout(i);
    i
  }

  /** `generateRandomPassword`, given the five indices
      `Math.floor(Math.random() * 62)` drew. */
  method GeneratePassword(draws: seq<nat>) returns (password: string)
    requires |draws| == PasswordLength
    requires forall i :: 0 <= i < |draws| ==> draws[i] < |Charset|
    ensures |password| == PasswordLength
    ensures forall i :: 0 <= i < |password| ==> IsAlphanumeric(password[i])
    ensures forall i :: 0 <= i < |password| ==> password[i] == Charset[draws[i]]
  {
    password := "";
    var i := 0;
    while i < PasswordLength
      invariant 0 <= i <= PasswordLength
      invariant |password| == i
      invariant forall k :: 0 <= k < i ==> password[k] == Charset[draws[k]]
      invariant forall k :: 0 <= k < i ==> IsAlphanumeric(password[k])
    {
      var c := Charset[draws[i]];
      CharsetLayout(draws[i]);
      password := password + [c];
      i := i + 1;
    }
  }

  /** Every five-character alphanumeric string is a possible password: these
      draws produce it. */
  lemma DrawsFor(p: string) returns (draws: seq<nat>)
    requires |p| == PasswordLength && forall i :: 0 <= i < |p| ==> IsAlphanumeric(p[i])
    ensures |draws| == PasswordLength
    ensures forall i :: 0 <= i < |draws| ==> draws[i] < |Charset| && Charset[draws[i]] == p[i]
  {
    draws := seq(|p|, i requires 0 <= i < |p| => CharsetIndex(p[i]));
  }

  // ---------------------------------------------------------------------
  // Bulk delete

  function NotSelected(selected: seq<UserId>): User -> bool
  {
    (u: User) => u.id !in selected
  }

  /** What a bulk delete did: the ids whose DELETE went out, in order, and
      the new list and selection. */
  datatype DeleteUsersResult = DeleteUsersResult(sent: seq<UserId>, users: seq<User>, selected: seq<UserId>)

  /** `handleDeleteUsers`: the requests go one after another in selection
      order; `failAt` is the position of the first that fails, if any.
      A failure stops the loop and leaves list and selection alone. */
  function DeleteUsers(users: seq<User>, selected: seq<UserId>, token: Option<string>, failAt: Option<nat>): (r: DeleteUsersResult)
    ensures |r.sent| <= |selected| && r.sent == selected[..|r.sent|]
    ensures |selected| == 0 || !HasToken(token) ==> r == DeleteUsersResult([], users, selected)
    ensures |selected| > 0 && HasToken(token) && failAt.Some? && failAt.value < |selected| ==>
      r == DeleteUsersResult(selected[..failAt.value + 1], users, selected)
    ensures |selected| > 0 && HasToken(token) && (failAt.None? || failAt.value >= |selected|) ==>
      && r.sent == selected
      && r.selected == []
      && (forall u :: u in r.users <==> u in users && u.id !in selected)
      && IsSubsequence(r.users, users)
    ensures forall u :: u in r.users ==> multiset(r.users)[u] == multiset(users)[u]
  {
    FilterCounts(users, NotSelected(selected));
    if |selected| == 0 || !HasToken(token) then DeleteUsersResult([], users, selected)
    else if failAt.Some? && failAt.value < |selected| then
      DeleteUsersResult(selected[..failAt.value + 1], users, selected)
    else
      DeleteUsersResult(selected, Filter(users, NotSelected(selected)), [])
  }

  /** The users other than `id`: what `DELETE /users/:id` leaves. */
  function OtherThan(id: UserId): User -> bool
  {
    (u: User) => u.id != id
  }

  /** The server's list after the DELETE requests for `ids` went through
      one after another, each removing the user with its id. */
  function ServerDeleteEach(server: seq<User>, ids: seq<UserId>): seq<User>
    decreases |ids|
  {
    if ids == [] then server else ServerDeleteEach(Filter(server, OtherThan(ids[0])), ids[1..])
  }

  /** One request per id removes the same users as dropping every selected
      id at once. */
  lemma {:induction false} ServerDeleteEachDropsSelected(server: seq<User>, ids: seq<UserId>)
    ensures ServerDeleteEach(server, ids) == Filter(server, NotSelected(ids))
    decreases |ids|
  {
    if ids == [] {
      FilterKeepsAll(server, NotSelected(ids));
    } else {
      ServerDeleteEachDropsSelected(Filter(server, OtherThan(ids[0])), ids[1..]);
      assert ids == [ids[0]] + ids[1..];
      FilterFilter(server, OtherThan(ids[0]), NotSelected(ids[1..]), NotSelected(ids));
    }
  }

  /** When every request succeeds, the table shows what a reload from the
      server would show: the server's remaining users, newest first. */
  lemma {:induction false} DeleteUsersMatchesServer(users: seq<User>, server: seq<User>, selected: seq<UserId>,
                                                    token: Option<string>)
    requires |selected| > 0 && HasToken(token)
    ensures
      var page := LoadUsers(users, token, UsersAnswered(server));
      DeleteUsers(page, selected, token, None).users
        == LoadUsers(page, token, UsersAnswered(ServerDeleteEach(server, selected)))
  {
    ServerDeleteEachDropsSelected(server, selected);
    FilterReverse(server, NotSelected(selected));
  }

  /** When the request at position `k > 0` fails, the first selected user
      is gone from the server but stays in the table until the next
      reload. */
  lemma PartialDeleteLeavesStaleRows(users: seq<User>, server: seq<User>, selected: seq<UserId>,
                                     token: Option<string>, k: nat)
    requires HasToken(token) && 0 < k < |selected|
    requires server != [] && server[0].id == selected[0]
    ensures
      var r := DeleteUsers(LoadUsers(users, token, UsersAnswered(server)), selected, token, Some(k));
      server[0] in r.users && server[0] !in ServerDeleteEach(server, selected[..k])
  {
    var page := LoadUsers(users, token, UsersAnswered(server));
    assert page[|server| - 1] == server[0];
    ServerDeleteEachDropsSelected(server, selected[..k]);
    assert selected[..k][0] == selected[0];
  }

  // ---------------------------------------------------------------------
  // Password reset

  function WithPassword(userId: UserId, password: Option<string>): User -> User
  {
    (u: User) => if u.id == userId then u.(plainPassword := password) else u
  }

  /** What the reset request came back with: the user's new
      `plainPassword` (absent when the server sent none), or an error. */
  datatype ResetReply = ResetThrew | ResetAnswered(plainPassword: Option<string>)

  /** `handleResetPassword`: on an answer, the rows with the id get the
      returned password and every other row is left as it was. */
  function ResetPassword(users: seq<User>, userId: UserId, token: Option<string>, reply: ResetReply): (r: seq<User>)
    ensures |r| == |users|
    ensures forall i :: 0 <= i < |users| && users[i].id != userId ==> r[i] == users[i]
    ensures forall i :: 0 <= i < |users| ==> r[i].(plainPassword := users[i].plainPassword) == users[i]
    ensures !HasToken(token) || reply.ResetThrew? ==> r == users
    ensures HasToken(token) && reply.ResetAnswered? ==>
      forall i :: 0 <= i < |users| && users[i].id == userId ==> r[i].plainPassword == reply.plainPassword
  {
    if !HasToken(token) || reply.ResetThrew? then users
    else Map(users, WithPassword(userId, reply.plainPassword))
  }

  /** Repeating a reset that got the same answer changes nothing more, and
      resetting an id that is not listed changes nothing at all. */
  lemma ResetPasswordIdempotent(users: seq<User>, userId: UserId, token: Option<string>, reply: ResetReply)
    ensures ResetPassword(ResetPassword(users, userId, token, reply), userId, token, reply)
            == ResetPassword(users, userId, token, reply)
    ensures (forall i :: 0 <= i < |users| ==> users[i].id != userId) ==> ResetPassword(users, userId, token, reply) == users
  {
  }

  // ---------------------------------------------------------------------
  // Search and loading

  function UserMatches(term: string): User -> bool
  {
    (u: User) => Contains(Lower(u.name), Lower(term)) || Contains(Lower(u.email), Lower(term))
  }

  /** `filteredUsers`: the rows whose name or e-mail contains the search
      term, ignoring case, in list order. */
  function FilterUsers(users: seq<User>, term: string): (shown: seq<User>)
    ensures forall u :: u in shown <==>
      u in users && (Contains(Lower(u.name), Lower(term)) || Contains(Lower(u.email), Lower(term)))
    ensures IsSubsequence(shown, users)
    ensures forall u :: u in shown ==> multiset(shown)[u] == multiset(users)[u]
  {
    FilterCounts(users, UserMatches(term));
    Filter(users, UserMatches(term))
  }

  /** An empty search shows everyone; the case of the term does not
      matter. */
  lemma FilterUsersLaws(users: seq<User>, term: string)
    ensures FilterUsers(users, "") == users
    ensures FilterUsers(users, term) == FilterUsers(users, Lower(term))
  {
    forall i | 0 <= i < |users| ensures UserMatches("")(users[i]) {
      ContainsEmpty(Lower(users[i].name));
    }
    FilterKeepsAll(users, UserMatches(""));
    LowerIdempotent(term);
    FilterCongruent(users, UserMatches(term), UserMatches(Lower(term)));
  }

  /** What `GET /users` came back with. */
  datatype UsersReply = UsersThrew | UsersAnswered(data: seq<User>)

  /** `fetchUsers`: without a token nothing changes; a failed request
      empties the table; an answer is shown newest first, that is, in the
      reverse of the server's order. */
  function LoadUsers(users: seq<User>, token: Option<string>, reply: UsersReply): (r: seq<User>)
    ensures !HasToken(token) ==> r == users
    ensures HasToken(token) && reply.UsersThrew? ==> r == []
    ensures HasToken(token) && reply.UsersAnswered? ==>
      |r| == |reply.data| && forall i :: 0 <= i < |r| ==> r[i] == reply.data[|r| - 1 - i]
  {
    if !HasToken(token) then users
    else match reply
      case UsersThrew => []
      case UsersAnswered(data) => Reverse(data)
  }

  /** The displayed order loses nothing: reversing it back gives the
      server's order, so the server's last user heads the table. */
  lemma LoadUsersReversesServerOrder(users: seq<User>, token: Option<string>, data: seq<User>)
    requires HasToken(token)
    ensures Reverse(LoadUsers(users, token, UsersAnswered(data))) == data
    ensures data != [] ==> LoadUsers(users, token, UsersAnswered(data))[0] == data[|data| - 1]
  {
    ReverseReverse(data);
  }
}

=== FILE: app.dfy ===
/** The application shell: the search box over the module catalogue, the
    dark-mode switch, signing in and out, and the route table that guards
    every page but the sign-in page. */
module App {
  import opened Wrappers
  import opened Seqs
  import opened Strings
  import opened Session
  import DocumentPage
  import ActiveUsers

  // ---------------------------------------------------------------------
  // Search

  /** An entry of the search catalogue. */
  datatype Item = Item(name: string, path: string, category: string)

  const Catalogue: seq<Item> := [
    Item("Licenses", "/Licenses/Licensepage", "Modules > Licenses"),
    Item("Trade Licenses", "/Licenses/Licensepage", "Modules > Licenses > Trade Licenses"),
    Item("Staff Medicals", "/UserManagement", "Modules > Licenses > Staff Medicals"),
    Item("Toursim Licenses", "/UserManagement", "Modules > Licenses > Tourism Licenses"),
    Item("Labour Licenses", "/UserManagement", "Modules > Licenses > Labour Licenses"),
    Item("Approvals", "/Approval/Approvalpage", "Modules > Approvals"),
    Item("Outer Spaces", "/Approval/Approvalpage", "Modules > Approvals > Outer Spaces"),
    Item("Vehicles", "/Vehicles/Vehiclepage", "Modules > Vehicles"),
    Item("Maintenance", "/Vehicles/Vehiclepage", "Modules > Vehicles > Maintenance"),
    Item("Route Permits", "/Vehicles/Vehiclepage", "Modules > Vehicles > Route Permits"),
    Item("Token Taxes", "/Vehicles/Vehiclepage", "Modules > Vehicles > Token Taxes"),
    Item("User Requests", "/UserRequests", "Modules > User Requests"),
    Item("Health Safety Environment", "/Hse/Hse", "Modules > Health Safety Environment"),
    Item("Monthly Inspection", "/Hse/Hse", "Modules > Health Safety Environment > Monthly Inspection"),
    Item("Quarterly Audit", "/Hse/Hse", "Modules > Health Safety Environment > Quarterly Audit"),
    Item("Training Status", "/Hse/Hse", "Modules > Health Safety Environment > Training Status"),
    Item("Incidents", "/Hse/Hse", "Modules > Health Safety Environment > Incidents"),
    Item("Taxation", "/Taxation/Taxationpage", "Modules > Taxation"),
    Item("Marketing / BillBoards Taxes", "/Taxation/Taxationpage", "Modules > Taxation > Marketing / BillBoards Taxes"),
    Item("Profession Taxes", "/Taxation/Taxationpage", "Modules > Taxation > Profession Taxes"),
    Item("Certificates", "/Certificate/Certificatepage", "Modules > Certificates"),
    Item("Electric Fitness Test", "/Certificate/Certificatepage", "Modules > Certificates > Electric Fitness Test"),
    Item("Security", "/Security/GuardTraining", "Modules > Security"),
    Item("Admin Policies and SOPs", "/AdminPolicies", "Modules > Admin Policies"),
    Item("Rental Agreements", "/RentalAgreements", "Modules > Rental Agreements"),
    Item("User Management", "/UserManagement/", "Modules > User Management")
  ]

  /** Some registered module name includes `name`, case and all. */
  predicate AnyIncludes(modules: seq<string>, name: string)
    decreases |modules|
  {
    |modules| > 0 && (Contains(modules[0], name) || AnyIncludes(modules[1..], name))
  }

  lemma {:induction false} AnyIncludesIff(modules: seq<string>, name: string)
    ensures AnyIncludes(modules, name) <==> exists m :: m in modules && Contains(m, name)
    decreases |modules|
  {
    if |modules| > 0 {
      AnyIncludesIff(modules[1..], name);
      assert forall m :: m in modules <==> m == modules[0] || m in modules[1..];
    }
  }

  /** The search filter: the user may open the item and its name includes
      the lower-cased query, ignoring case. */
  function ItemMatches(modules: seq<string>, lowerQuery: string): Item -> bool
  {
    (item: Item) => AnyIncludes(modules, item.name) && Contains(Lower(item.name), lowerQuery)
  }

  /** The module list the search may use: present and an array. */
  function SearchModules(user: Option<SignedInUser>): Option<seq<string>>
  {
    if user.Some? && user.value.registeredModules.Modules? then Some(user.value.registeredModules.names) else None
  }

  /** `handleSearch` over the item list `items`: nothing for an empty query
      or a user without a module list; otherwise the items the user is
      registered for whose name includes the query, in list order. */
  function SearchIn(items: seq<Item>, query: string, user: Option<SignedInUser>): (results: seq<Item>)
    ensures query == "" || SearchModules(user).None? ==> results == []
    ensures IsSubsequence(results, items)
    ensures query != "" && SearchModules(user).Some? ==>
      forall item :: item in results <==>
        item in items && Contains(Lower(item.name), Lower(query))
        && AnyIncludes(SearchModules(user).value, item.name)
    ensures forall item :: item in results ==> multiset(results)[item] == multiset(items)[item]
  {
    match SearchModules(user)
    case None => []
    case Some(modules) =>
      if query == "" then []
      else
        FilterCounts(items, ItemMatches(modules, Lower(query)));
        Filter(items, ItemMatches(modules, Lower(query)))
  }

  /** The search box: `SearchIn` over the application's catalogue. */
  function Search(query: string, user: Option<SignedInUser>): seq<Item>
  {
    SearchIn(Catalogue, query, user)
  }

  /** An item is found exactly when some registered module includes its
      name and its name includes the query, ignoring the query's case. */
  lemma SearchFindsIff(items: seq<Item>, query: string, modules: seq<string>, item: Item)
    requires query != ""
    ensures item in SearchIn(items, query, Some(SignedInUser(Modules(modules)))) <==>
      item in items && Contains(Lower(item.name), Lower(query))
      && exists m :: m in modules && Contains(m, item.name)
  {
    AnyIncludesIff(modules, item.name);
  }

  /** The case of the query does not matter. */
  lemma SearchIgnoresQueryCase(items: seq<Item>, query: string, user: Option<SignedInUser>)
    ensures SearchIn(items, query, user) == SearchIn(items, Lower(query), user)
  {
    LowerIdempotent(query);
    if SearchModules(user).Some? {
      var modules := SearchModules(user).value;
      FilterCongruent(items, ItemMatches(modules, Lower(query)), ItemMatches(modules, Lower(Lower(query))));
    }
  }

  /** Registering more modules never hides a result. */
  lemma MoreModulesFindMore(items: seq<Item>, query: string, modules: seq<string>, more: seq<string>)
    requires forall m :: m in modules ==> m in more
    ensures IsSubsequence(SearchIn(items, query, Some(SignedInUser(Modules(modules)))),
                          SearchIn(items, query, Some(SignedInUser(Modules(more)))))
  {
    if query != "" {
      MatchesMonotone(items, modules, more, Lower(query));
    }
  }

  /** Over any list of items, matching with more modules keeps every
      match, in order. */
  lemma MatchesMonotone(items: seq<Item>, modules: seq<string>, more: seq<string>, lowerQuery: string)
    requires forall m :: m in modules ==> m in more
    ensures IsSubsequence(Filter(items, ItemMatches(modules, lowerQuery)), Filter(items, ItemMatches(more, lowerQuery)))
  {
    forall j | 0 <= j < |items| && ItemMatches(modules, lowerQuery)(items[j])
      ensures ItemMatches(more, lowerQuery)(items[j])
    {
      AnyIncludesIff(modules, items[j].name);
      AnyIncludesIff(more, items[j].name);
    }
    FilterMonotone(items, ItemMatches(modules, lowerQuery), ItemMatches(more, lowerQuery));
  }

  /** A module registered as "<section>_<title>" makes both the section's
      item and the title's item searchable, since the test is substring
      inclusion. */
  lemma SubmoduleGrantsSection(section: string, title: string, modules: seq<string>)
    requires section + "_" + title in modules
    ensures AnyIncludes(modules, section) && AnyIncludes(modules, title)
  {
    ContainsParts(section, "_" + title);
    ContainsParts(section + "_", title);
    assert section + "_" + title == section + ("_" + title);
    AnyIncludesIff(modules, section);
    AnyIncludesIff(modules, title);
  }

  // ---------------------------------------------------------------------
  // Theme

  /** `handleDarkModeToggle`. */
  function ToggleDarkMode(darkMode: bool): (r: bool)
    ensures r != darkMode
  {
    !darkMode
  }

  /** The palette mode the theme is built with. */
  function ThemeMode(darkMode: bool): (mode: string)
    ensures mode == "dark" || mode == "light"
    ensures mode == "dark" <==> darkMode
  {
    if darkMode then "dark" else "light"
  }

  /** Two toggles restore the theme; one always changes it. */
  lemma ToggleTwice(darkMode: bool)
    ensures ToggleDarkMode(ToggleDarkMode(darkMode)) == darkMode
    ensures ThemeMode(ToggleDarkMode(darkMode)) != ThemeMode(darkMode)
  {
  }

  // ---------------------------------------------------------------------
  // Session

  /** The shell's state: the authentication flag, the signed-in user, the
      browser's local storage, and the address bar. */
  datatype Shell = Shell(isAuthenticated: bool, user: Option<SignedInUser>, storage: map<string, string>,
                         location: string)

  /** What the sign-in page hands over: the user, the token, and the user
      serialised for storage. */
  datatype LoginData = LoginData(user: SignedInUser, token: string, userJson: string)

  const TokenKey: string := "token"
  const UserKey: string := "user"
  const LoginPath: string := "/login"

  /** The token as the pages read it from storage. */
  function StoredToken(sh: Shell): (t: Option<string>)
    ensures t.Some? <==> TokenKey in sh.storage
  {
    if TokenKey in sh.storage then Some(sh.storage[TokenKey]) else None
  }

  /** `handleLogin`. */
  function Login(sh: Shell, data: LoginData): (r: Shell)
    ensures r.isAuthenticated && r.user == Some(data.user)
    ensures StoredToken(r) == Some(data.token)
    ensures UserKey in r.storage && r.storage[UserKey] == data.userJson
    ensures forall k :: k != TokenKey && k != UserKey ==>
      (k in r.storage <==> k in sh.storage) && (k in sh.storage ==> r.storage[k] == sh.storage[k])
    ensures r.location == sh.location
  {
    Shell(true, Some(data.user), sh.storage[TokenKey := data.token][UserKey := data.userJson], sh.location)
  }

  /** `handleLogout`: the session is dropped and the browser goes to the
      sign-in page. */
  function Logout(sh: Shell): (r: Shell)
    ensures !r.isAuthenticated && r.user.None? && r.location == LoginPath
    ensures StoredToken(r).None? && UserKey !in r.storage
    ensures forall k :: k != TokenKey && k != UserKey ==>
      (k in r.storage <==> k in sh.storage) && (k in sh.storage ==> r.storage[k] == sh.storage[k])
  {
    Shell(false, None, sh.storage - {TokenKey, UserKey}, LoginPath)
  }

  /** Signing in and straight out again leaves storage as it was, minus
      any token or user left from before. */
  lemma LoginThenLogout(sh: Shell, data: LoginData)
    ensures Logout(Login(sh, data)).storage == sh.storage - {TokenKey, UserKey}
  {
  }

  /** After signing out, the pages that need a token send nothing: the
      document pages do not fetch, the licences page does not delete, and
      the users table neither loads nor deletes. The Cantt passes page
      still sends its token-less delete. */
  lemma LogoutSilencesPages(sh: Shell, zone: string, branch: string, name: string,
                            fetchReply: DocumentPage.Reply, files: seq<DocumentPage.FileRecord>,
                            users: seq<ActiveUsers.User>, selected: seq<ActiveUsers.UserId>,
                            usersReply: ActiveUsers.UsersReply, failAt: Option<nat>)
    ensures var token := StoredToken(Logout(sh));
      && DocumentPage.FetchFiles(DocumentPage.PunjabFoodAuthority, zone, branch, token, fetchReply, files).request.None?
      && DocumentPage.FetchFiles(DocumentPage.CanttPasses, zone, branch, token, fetchReply, files).request.None?
      && DocumentPage.DeleteConfirm(DocumentPage.PunjabFoodAuthority, name, zone, branch, token, fetchReply, files).request.None?
      && DocumentPage.DeleteConfirm(DocumentPage.CanttPasses, name, zone, branch, token, fetchReply, files).request.Some?
      && ActiveUsers.LoadUsers(users, token, usersReply) == users
      && ActiveUsers.DeleteUsers(users, selected, token, failAt).sent == []
  {
  }

  // ---------------------------------------------------------------------
  // Routing

  /** A route of the table: its path and whether it is wrapped in the
      authentication check. */
  datatype Route = Route(path: string, guarded: bool)

  /** What the router shows. */
  datatype View = PublicPage(path: string) | Page(path: string) | RedirectToLogin | NoMatch

  function GuardedRoute(path: string): Route
  {
    Route(path, true)
  }

  /** Every path rendered behind the authentication check. */
  const GuardedPaths: seq<string> := [
    "/",
    "/UserManagement/",
    "/RentalAgreements/",
    "/AdminPolicies/",
    "/UserRequests/",
    "/Licenses/Licensepage",
    "/Licenses/Cantonment",
    "/Licenses/CapitalFoodAuthority",
    "/Licenses/IslamabadFoodAuthority",
    "/Licenses/LabourLicenses",
    "/Licenses/Medical",
    "/Licenses/PunjabFoodAuthority",
    "/Licenses/RecurringMedicalTests",
    "/Licenses/TourismLicenses",
    "/Licenses/VaccineRecord",
    "/Licenses/HiringTests",
    "/Approval/Approvalpage",
    "/Approval/DineIn",
    "/Approval/Generators",
    "/Approval/Facilities",
    "/ModulesGrid",
    "/Vehicles/Vehiclepage",
    "/Vehicles/RoutineMaintainence",
    "/Vehicles/MajorParts",
    "/Vehicles/MajorRepairs",
    "/Vehicles/AnnualTokenTax",
    "/Vehicles/MTag",
    "/Vehicles/CanttPasses",
    "/Vehicles/Islamabad",
    "/Vehicles/Peshawar",
    "/Vehicles/Rawalpindi",
    "/Vehicles/Wah",
    "/Hse/Hse",
    "/Hse/MonthlyInspection",
    "/Hse/QuarterlyAudit",
    "/Hse/ExpiryofCylinders",
    "/Hse/Fatal",
    "/Hse/LostTimeInjury",
    "/Hse/RestrictedWorkInjury",
    "/Hse/FireSafety",
    "/Hse/FireAid",
    "/Hse/Emergency",
    "/Taxation/Taxationpage",
    "/Taxation/MarketingBillBoardsTaxes",
    "/Taxation/ProfessionTax",
    "/Certificate/Certificatepage",
    "/Certificate/ElectricFitnessTest",
    "/Security/GuardTraining"
  ]

  /** The route table: the sign-in page, then the guarded pages. */
  function AppRoutes(): (routes: seq<Route>)
    ensures |routes| == 1 + |GuardedPaths| && routes[0] == Route(LoginPath, false)
    ensures forall i :: 1 <= i < |routes| ==> routes[i] == Route(GuardedPaths[i - 1], true)
  {
    [Route(LoginPath, false)] + Map(GuardedPaths, GuardedRoute)
  }

  /** The router's matching key: case is ignored and a trailing '/' is
      optional. */
  function RouteKey(path: string): (key: string)
    ensures |key| == |path| || (|path| > 1 && |key| == |path| - 1)
  {
    if |path| > 1 && path[|path| - 1] == '/' then Lower(path[..|path| - 1]) else Lower(path)
  }

  /** The path without its one optional trailing '/'; the root "/" keeps it. */
  function SansSlash(path: string): string
  {
    if |path| > 1 && path[|path| - 1] == '/' then path[..|path| - 1] else path
  }

  /** Two addresses share a key exactly when, after dropping one trailing
      '/', they have the same length and agree letter for letter up to
      ASCII case. */
  lemma RouteKeyIff(p: string, q: string)
    ensures RouteKey(p) == RouteKey(q) <==>
      |SansSlash(p)| == |SansSlash(q)| &&
      forall k :: 0 <= k < |SansSlash(p)| ==> LowerChar(SansSlash(p)[k]) == LowerChar(SansSlash(q)[k])
  {
    assert RouteKey(p) == Lower(SansSlash(p));
    assert RouteKey(q) == Lower(SansSlash(q));
    if |SansSlash(p)| == |SansSlash(q)| &&
      forall k :: 0 <= k < |SansSlash(p)| ==> LowerChar(SansSlash(p)[k]) == LowerChar(SansSlash(q)[k])
    {
      assert Lower(SansSlash(p)) == Lower(SansSlash(q));
    }
  }

  /** The case of the address does not matter, nor does one trailing '/'. */
  lemma RouteKeyLaws(path: string)
    ensures RouteKey(Lower(path)) == RouteKey(path)
    ensures path != [] && path[|path| - 1] != '/' ==> RouteKey(path + "/") == RouteKey(path)
  {
    LowerIdempotent(path);
    if |path| > 1 && path[|path| - 1] == '/' {
      assert Lower(path)[..|path| - 1] == Lower(path[..|path| - 1]);
      LowerIdempotent(path[..|path| - 1]);
    }
    if path != [] && path[|path| - 1] != '/' {
      assert (path + "/")[..|path|] == path;
    }
  }

  function KeyMatches(key: string): Route -> bool
  {
    (r: Route) => RouteKey(r.path) == key
  }

  /** The first route whose key matches. */
  function FindRoute(routes: seq<Route>, key: string): (r: Option<nat>)
    ensures r.None? <==> forall i :: 0 <= i < |routes| ==> RouteKey(routes[i].path) != key
    ensures r.Some? ==> r.value < |routes| && RouteKey(routes[r.value].path) == key
    ensures r.Some? ==> forall j :: 0 <= j < r.value ==> RouteKey(routes[j].path) != key
  {
    FirstIndex(routes, KeyMatches(key))
  }

  /** Route `i` is the first of the table whose key is `key`. */
  predicate FirstMatch(routes: seq<Route>, key: string, i: int)
  {
    0 <= i < |routes| && RouteKey(routes[i].path) == key &&
    forall j :: 0 <= j < i ==> RouteKey(routes[j].path) != key
  }

  /** The first match is unique. */
  lemma FirstMatchUnique(routes: seq<Route>, key: string, i: nat)
    requires FirstMatch(routes, key, i)
    ensures forall k | FirstMatch(routes, key, k) :: k == i
  {
  }

  /** What the router renders at `location`: the first route whose key
      matches decides, a public route showing its page to everyone and a
      guarded one showing its page only when signed in. */
  function Render(routes: seq<Route>, location: string, isAuthenticated: bool): (v: View)
    ensures v.NoMatch? <==> forall i :: 0 <= i < |routes| ==> RouteKey(routes[i].path) != RouteKey(location)
    ensures forall i | FirstMatch(routes, RouteKey(location), i) ::
      && (!routes[i].guarded ==> v == PublicPage(routes[i].path))
      && (routes[i].guarded && isAuthenticated ==> v == Page(routes[i].path))
      && (routes[i].guarded && !isAuthenticated ==> v == RedirectToLogin)
    ensures v.Page? ==> isAuthenticated
    ensures v.PublicPage? || v.Page? ==> RouteKey(v.path) == RouteKey(location)
    ensures v.PublicPage? ==> exists i :: 0 <= i < |routes| && routes[i] == Route(v.path, false)
    ensures v.RedirectToLogin? ==> !isAuthenticated
  {
    match FindRoute(routes, RouteKey(location))
    case None => NoMatch
    case Some(i) =>
      FirstMatchUnique(routes, RouteKey(location), i);
      if !routes[i].guarded then PublicPage(routes[i].path)
      else if isAuthenticated then Page(routes[i].path)
      else RedirectToLogin
  }

  /** A visitor who is not signed in sees the sign-in page, a redirect to
      it, or nothing; never a guarded page. */
  lemma SignedOutSeesOnlyLogin(location: string)
    ensures var v := Render(AppRoutes(), location, false);
      v == PublicPage(LoginPath) || v.RedirectToLogin? || v.NoMatch?
  {
  }

  /** Each guarded path redirects a signed-out visitor and, for a
      signed-in one, opens the page of the earliest guarded path sharing
      its key, unless that key is the sign-in page's, which comes first;
      the sign-in page opens for both. */
  lemma GuardedPageRenders(i: nat, isAuthenticated: bool)
    requires i < |GuardedPaths|
    ensures var v := Render(AppRoutes(), GuardedPaths[i], isAuthenticated);
      if RouteKey(GuardedPaths[i]) == RouteKey(LoginPath) then v == PublicPage(LoginPath)
      else if isAuthenticated then
        exists j :: 0 <= j <= i && RouteKey(GuardedPaths[j]) == RouteKey(GuardedPaths[i]) && v == Page(GuardedPaths[j])
      else v.RedirectToLogin?
    ensures Render(AppRoutes(), LoginPath, isAuthenticated) == PublicPage(LoginPath)
  {
    var routes := AppRoutes();
    assert routes[i + 1].path == GuardedPaths[i];
    var k := FindRoute(routes, RouteKey(GuardedPaths[i]));
    assert k.Some?;
    if k.value > 0 {
      assert routes[k.value].path == GuardedPaths[k.value - 1];
    }
  }
}

=== FILE: document_page.dfy ===
/** The two document pages, Punjab Food Authority licences and Cantt
    passes, as one page parameterised by the file category it manages.
    The pages differ only in the category in their URLs and in whether the
    delete request carries the session token. Every browser effect (local
    storage, the network, the image compressor) is a parameter. */
module DocumentPage {
  import opened Wrappers
  import opened Seqs
  import opened Strings
  import FileStore
  import opened Session

  type FileRecord = FileStore.FileRecord
  type Scope = FileStore.Scope

  /** What tells the two pages apart. */
  datatype PageConfig = PageConfig(category: string, deleteSendsToken: bool)

  const PunjabFoodAuthority: PageConfig := PageConfig("licenses-tradelicenses-pfa", true)
  const CanttPasses: PageConfig := PageConfig("vehicles-routepermits-canttpasses", false)

  // ---------------------------------------------------------------------
  // Choosing a file

  const MiB: nat := 1024 * 1024
  const MaxImageSize: nat := 10 * MiB
  const MaxDocumentSize: nat := 20 * MiB

  /** A file picked in the browser: name, MIME type, size in bytes, bytes. */
  datatype PickedFile = PickedFile(name: string, mimetype: string, size: nat, data: seq<FileStore.byte>)

  predicate IsImageFile(f: PickedFile)
  {
    StartsWith(f.mimetype, "image/")
  }

  /** The size cap for a file: 10 MiB for images, 20 MiB for the rest. */
  function MaxSize(f: PickedFile): (m: nat)
    ensures m == MaxImageSize || m == MaxDocumentSize
    ensures m == MaxImageSize <==> IsImageFile(f)
  {
    if IsImageFile(f) then MaxImageSize else MaxDocumentSize
  }

  /** `name.replace(/\s+/g, '_')`. */
  function NormalizeFileName(name: string): (r: string)
    ensures HasNoSpace(r)
    ensures |r| <= |name|
  {
    CollapseSpaces(name)
  }

  /** What the image compressor reports: its output (whose type it may
      change), or an error. */
  datatype Compression = Compressed(data: seq<FileStore.byte>, mimetype: string) | CompressionFailed

  /** What choosing a file leads to. `Send` carries the multipart file
      and the scope of the upload URL; `fellBack` says the compressor
      failed and the original went out instead. */
  datatype SelectOutcome =
    | Ignored
    | TooLarge(limitMiB: nat)
    | NeedsLogin
    | Send(file: FileStore.UploadedFile, scope: Scope, fellBack: bool)

  /** The scope the upload URL names: the selected zone and branch as they
      are, untrimmed. */
  function UploadScope(cfg: PageConfig, zone: string, branch: string): Scope
  {
    FileStore.Scope(cfg.category, zone, branch)
  }

  /** `handleFileSelect` followed by the choice `uploadCompressedFile` is
      called with: check the size, then the token, then compress images,
      falling back to the original when compression fails. */
  function HandleFileSelect(cfg: PageConfig, picked: Option<PickedFile>, token: Option<string>,
                            zone: string, branch: string, compression: Compression): (out: SelectOutcome)
    ensures picked.None? ==> out == Ignored
    ensures picked.Some? ==> (out.TooLarge? <==> picked.value.size > MaxSize(picked.value))
    ensures out.TooLarge? ==> out.limitMiB == (if IsImageFile(picked.value) then 10 else 20)
    ensures out.NeedsLogin? <==> picked.Some? && picked.value.size <= MaxSize(picked.value) && !HasToken(token)
    ensures out.Send? <==> picked.Some? && picked.value.size <= MaxSize(picked.value) && HasToken(token)
    ensures out.Send? ==>
      && out.file.originalname == NormalizeFileName(picked.value.name)
      && out.scope == UploadScope(cfg, zone, branch)
      && (out.fellBack <==> IsImageFile(picked.value) && compression.CompressionFailed?)
      && (if IsImageFile(picked.value) && compression.Compressed?
          then out.file.buffer == compression.data && out.file.mimetype == compression.mimetype
          else out.file.buffer == picked.value.data && out.file.mimetype == picked.value.mimetype)
  {
    match picked
    case None => Ignored
    case Some(f) =>
      var maxSize := MaxSize(f);
      if f.size > maxSize then TooLarge(maxSize / MiB)
      else if !HasToken(token) then NeedsLogin
      else
        var name := NormalizeFileName(f.name);
        var scope := UploadScope(cfg, zone, branch);
        if IsImageFile(f) then
          match compression
          case Compressed(data, mimetype) => Send(FileStore.UploadedFile(name, mimetype, data), scope, false)
          case CompressionFailed => Send(FileStore.UploadedFile(name, f.mimetype, f.data), scope, true)
        else
          Send(FileStore.UploadedFile(name, f.mimetype, f.data), scope, false)
  }

  /** The size check rejects only files strictly above the cap: a file of
      exactly 10 MiB (image) or 20 MiB (other) goes through, one byte more
      does not. */
  lemma SizeCapIsInclusive(cfg: PageConfig, f: PickedFile, token: Option<string>, zone: string, branch: string, c: Compression)
    requires HasToken(token)
    ensures f.size == MaxSize(f) ==> HandleFileSelect(cfg, Some(f), token, zone, branch, c).Send?
    ensures f.size == MaxSize(f) + 1 ==> HandleFileSelect(cfg, Some(f), token, zone, branch, c).TooLarge?
  {
  }

  /** Non-image files are never handed to the compressor: whatever it
      would report, the original bytes and type go out. */
  lemma DocumentsSkipCompression(cfg: PageConfig, f: PickedFile, token: Option<string>, zone: string, branch: string,
                                 c1: Compression, c2: Compression)
    requires !IsImageFile(f)
    ensures HandleFileSelect(cfg, Some(f), token, zone, branch, c1) == HandleFileSelect(cfg, Some(f), token, zone, branch, c2)
  {
  }

  /** The name the server stores for a page upload is the normalised name:
      it has no whitespace, so the server's own trim leaves it alone, and
      with whitespace and underscores erased it reads as the picked name
      does. */
  lemma StoredNameIsNormalized(st: FileStore.Store, cfg: PageConfig, f: PickedFile, token: Option<string>,
                               zone: string, branch: string, c: Compression)
    requires HandleFileSelect(cfg, Some(f), token, zone, branch, c).Send?
    ensures var out := HandleFileSelect(cfg, Some(f), token, zone, branch, c);
      var rec := FileStore.NewRecord(st, out.scope, out.file);
      && rec.filename == NormalizeFileName(f.name)
      && HasNoSpace(rec.filename)
      && Filter(rec.filename, IsVisible) == Filter(f.name, IsVisible)
  {
    var name := NormalizeFileName(f.name);
    TrimOfSpaceless(name);
    CollapseSpacesKeepsVisible(f.name);
  }

  // ---------------------------------------------------------------------
  // Upload progress and completion

  /** `Math.round(loaded * 100 / total)` in exact arithmetic: the nearest
      whole percentage, halves rounded up. */
  function Progress(loaded: nat, total: nat): (p: nat)
    requires total > 0
    ensures 2 * total * p <= 200 * loaded + total < 2 * total * (p + 1)
  {
    (200 * loaded + total) / (2 * total)
  }

  /** A progress event updates the bar only when its length is computable;
      the multipart body is never empty, so a computable total is
      positive. */
  function OnProgress(current: nat, lengthComputable: bool, loaded: nat, total: nat): (p: nat)
    requires lengthComputable ==> total > 0
    ensures lengthComputable ==> p == Progress(loaded, total)
    ensures !lengthComputable ==> p == current
  {
    if lengthComputable then Progress(loaded, total) else current
  }

  /** While no more than the total is sent, the bar stays within 0..100,
      reads 0 before the first byte and 100 once everything is sent. */
  lemma ProgressInRange(loaded: nat, total: nat)
    requires 0 < total && loaded <= total
    ensures Progress(loaded, total) <= 100
    ensures loaded == 0 ==> Progress(loaded, total) == 0
    ensures loaded == total ==> Progress(loaded, total) == 100
  {
    var p := Progress(loaded, total);
    if p > 100 {
      assert 2 * total * p >= 2 * total * 101 by {
        MulMonotone(2 * total, 101, p);
      }
    }
    if loaded == total {
      assert 2 * total * p <= 201 * total < 2 * total * (p + 1);
      if p < 100 {
        MulMonotone(2 * total, p + 1, 100);
      }
    }
  }

  lemma MulMonotone(k: nat, a: nat, b: nat)
    requires a <= b
    ensures k * a <= k * b
  {
  }

  /** More bytes sent never moves the bar back. */
  lemma ProgressMonotone(l1: nat, l2: nat, total: nat)
    requires 0 < total && l1 <= l2
    ensures Progress(l1, total) <= Progress(l2, total)
  {
    var p1, p2 := Progress(l1, total), Progress(l2, total);
    if p2 < p1 {
      MulMonotone(2 * total, p2 + 1, p1);
    }
  }

  /** `xhr.onload` counts statuses 200 and 201 as success. */
  predicate UploadSucceeded(status: nat)
  {
    status == 200 || status == 201
  }

  /** Against the file controller, the page reports success exactly when
      the server created the file. */
  lemma UploadSuccessMeansCreated(st: FileStore.Store, scope: Scope, file: FileStore.UploadedFile, streamOk: bool, saveOk: bool)
    ensures var out := FileStore.UploadFile(st, scope, Some(file), streamOk, saveOk);
      UploadSucceeded(FileStore.Status(out.response)) <==> out.response.Created?
  {
  }

  // ---------------------------------------------------------------------
  // Search

  /** The search predicate: the query, lower-cased, occurs in the lower-cased
      file name or file number. */
  function FileMatches(query: string): FileRecord -> bool
  {
    (f: FileRecord) => Contains(Lower(f.filename), Lower(query)) || Contains(Lower(f.fileNumber), Lower(query))
  }

  /** `filteredFiles`: the listed files the search box matches, in list
      order. */
  function FilterFiles(files: seq<FileRecord>, query: string): (shown: seq<FileRecord>)
    ensures forall f :: f in shown <==>
      f in files && (Contains(Lower(f.filename), Lower(query)) || Contains(Lower(f.fileNumber), Lower(query)))
    ensures IsSubsequence(shown, files)
    ensures forall f :: f in shown ==> multiset(shown)[f] == multiset(files)[f]
  {
    FilterCounts(files, FileMatches(query));
    Filter(files, FileMatches(query))
  }

  /** An empty search box shows every listed file. */
  lemma EmptyQueryShowsAll(files: seq<FileRecord>)
    ensures FilterFiles(files, "") == files
  {
    forall i | 0 <= i < |files| ensures FileMatches("")(files[i]) {
      ContainsEmpty(Lower(files[i].filename));
    }
    FilterKeepsAll(files, FileMatches(""));
  }

  /** Typing a listed file's number finds that file. */
  lemma NumberFindsFile(files: seq<FileRecord>, f: FileRecord)
    requires f in files
    ensures f in FilterFiles(files, f.fileNumber)
  {
    ContainsSelf(Lower(f.fileNumber));
  }

  /** The search ignores the case of the query. */
  lemma SearchIgnoresQueryCase(files: seq<FileRecord>, query: string)
    ensures FilterFiles(files, query) == FilterFiles(files, Lower(query))
  {
    LowerIdempotent(query);
    FilterCongruent(files, FileMatches(query), FileMatches(Lower(query)));
  }

  // ---------------------------------------------------------------------
  // Listing

  /** A reply to a request: a status with the decoded body, or a request
      that threw. */
  datatype Reply = Answered(status: nat, body: seq<FileRecord>) | Threw

  datatype FetchResult = FetchResult(request: Option<Scope>, files: seq<FileRecord>)

  /** The scope the listing URL names: zone and branch trimmed. */
  function FetchScope(cfg: PageConfig, zone: string, branch: string): Scope
  {
    FileStore.Scope(cfg.category, Trim(zone), Trim(branch))
  }

  /** `fetchFiles`: nothing happens until a zone and a branch are chosen;
      without a token the list is cleared; otherwise the reply decides: a
      2xx body replaces the list, 404 empties it, and any other status or a
      thrown request leaves it as it was. */
  function FetchFiles(cfg: PageConfig, zone: string, branch: string, token: Option<string>,
                      reply: Reply, files: seq<FileRecord>): (r: FetchResult)
    ensures zone == "" || branch == "" ==> r == FetchResult(None, files)
    ensures zone != "" && branch != "" && !HasToken(token) ==> r == FetchResult(None, [])
    ensures r.request.Some? <==> zone != "" && branch != "" && HasToken(token)
    ensures r.request.Some? ==> r.request.value == FetchScope(cfg, zone, branch)
    ensures r.request.Some? && reply.Answered? && Ok(reply.status) ==> r.files == reply.body
    ensures r.request.Some? && reply.Answered? && reply.status == 404 ==> r.files == []
    ensures r.request.Some? && (reply.Threw? || (!Ok(reply.status) && reply.status != 404)) ==> r.files == files
  {
    if zone == "" || branch == "" then FetchResult(None, files)
    else if !HasToken(token) then FetchResult(None, [])
    else
      var scope := FetchScope(cfg, zone, branch);
      match reply
      case Threw => FetchResult(Some(scope), files)
      case Answered(status, body) =>
        if Ok(status) then FetchResult(Some(scope), body)
        else if status == 404 then FetchResult(Some(scope), [])
        else FetchResult(Some(scope), files)
  }

  /** How the file controller's listing answer reaches the page. */
  function ListReply(resp: FileStore.Response): Reply
  {
    match resp
    case Listed(fs) => Answered(200, fs)
    case NotFound => Answered(404, [])
    case _ => Answered(FileStore.Status(resp), [])
  }

  /** Against the file controller, a fetch shows exactly the records of the
      trimmed scope, in store order, whatever the list held before; when
      the controller's query fails, the list the page held stays. */
  lemma FetchShowsScopeRecords(cfg: PageConfig, zone: string, branch: string, token: Option<string>,
                               st: FileStore.Store, findOk: bool, files: seq<FileRecord>)
    requires zone != "" && branch != "" && HasToken(token)
    ensures var scope := FetchScope(cfg, zone, branch);
      FetchFiles(cfg, zone, branch, token, ListReply(FileStore.ListFiles(st, scope, findOk)), files).files
        == if findOk then FileStore.ScopeRecords(st.records, scope) else files
  {
    var scope := FetchScope(cfg, zone, branch);
    var resp := FileStore.ListFiles(st, scope, findOk);
    if resp.NotFound? {
      FilterDropsAll(st.records, FileStore.InScope(scope));
    }
  }

  /** Uploads go to the untrimmed zone and branch while the listing asks
      for the trimmed ones: the two scopes agree exactly when neither name
      has whitespace at its ends. */
  lemma UploadAndFetchScopesAgree(cfg: PageConfig, zone: string, branch: string)
    ensures UploadScope(cfg, zone, branch) == FetchScope(cfg, zone, branch)
            <==> Trim(zone) == zone && Trim(branch) == branch
  {
  }

  /** So with a zone such as " Lahore", a successful upload lands in a
      scope the page never lists. */
  lemma PaddedZoneHidesUploads(cfg: PageConfig, st: FileStore.Store, branch: string, file: FileStore.UploadedFile)
    requires FileStore.MimeAllowed(file.mimetype)
    ensures var zone := " Lahore";
      var st' := FileStore.UploadFile(st, UploadScope(cfg, zone, branch), Some(file), true, true).store;
      && st'.records[|st.records|].scope != FetchScope(cfg, zone, branch)
  {
    var zone := " Lahore";
    assert zone[0] == ' ';
    assert IsSpace(zone[0]);
    TrimIsNotPadded(zone);
    FileStore.UploadAppends(st, UploadScope(cfg, zone, branch), file);
  }

  lemma TrimIsNotPadded(s: string)
    requires s != [] && IsSpace(s[0])
    ensures Trim(s) != s
  {
  }

  // ---------------------------------------------------------------------
  // Deleting

  /** The DELETE request: the URL's scope and file name, and whether the
      session token goes with it. */
  datatype DeleteRequest = DeleteRequest(scope: Scope, filename: string, withToken: bool)

  datatype DeleteResult = DeleteResult(request: Option<DeleteRequest>, files: seq<FileRecord>)

  /** The predicate the list is filtered with after a successful delete. */
  function NotNamed(name: string): FileRecord -> bool
  {
    (f: FileRecord) => f.filename != name
  }

  /** `handleDeleteConfirm`: the name is trimmed; a page that sends its
      token stops when there is none; on a 2xx reply every listed entry
      with that name is dropped, otherwise the list stays. */
  function DeleteConfirm(cfg: PageConfig, fileToDelete: string, zone: string, branch: string,
                         token: Option<string>, reply: Reply, files: seq<FileRecord>): (r: DeleteResult)
    ensures r.request.Some? <==> !cfg.deleteSendsToken || HasToken(token)
    ensures r.request.None? ==> r.files == files
    ensures r.request.Some? ==>
      r.request.value == DeleteRequest(UploadScope(cfg, zone, branch), Trim(fileToDelete), cfg.deleteSendsToken)
    ensures r.request.Some? && reply.Answered? && Ok(reply.status) ==>
      forall f :: f in r.files <==> f in files && f.filename != Trim(fileToDelete)
    ensures r.request.Some? && reply.Answered? && Ok(reply.status) ==> IsSubsequence(r.files, files)
    ensures reply.Threw? || !Ok(reply.status) ==> r.files == files
    ensures forall f :: f in r.files ==> multiset(r.files)[f] == multiset(files)[f]
  {
    var name := Trim(fileToDelete);
    FilterCounts(files, NotNamed(name));
    if cfg.deleteSendsToken && !HasToken(token) then DeleteResult(None, files)
    else
      var request := DeleteRequest(UploadScope(cfg, zone, branch), name, cfg.deleteSendsToken);
      if reply.Answered? && Ok(reply.status) then DeleteResult(Some(request), Filter(files, NotNamed(name)))
      else DeleteResult(Some(request), files)
  }

  /** The Cantt passes page sends its DELETE without the token, even when
      one is stored; the licences page sends it, or nothing at all. */
  lemma DeleteTokenPolicy(fileToDelete: string, zone: string, branch: string, token: Option<string>,
                          reply: Reply, files: seq<FileRecord>)
    ensures var r := DeleteConfirm(CanttPasses, fileToDelete, zone, branch, token, reply, files);
      r.request.Some? && !r.request.value.withToken
    ensures var r := DeleteConfirm(PunjabFoodAuthority, fileToDelete, zone, branch, token, reply, files);
      (r.request.Some? <==> HasToken(token)) && (r.request.Some? ==> r.request.value.withToken)
  {
  }

  /** The server's reply to the page's DELETE request. */
  function DeleteReply(resp: FileStore.Response): Reply
  {
    Answered(FileStore.Status(resp), [])
  }

  /** Against the file controller, when the page lists the scope exactly
      and no two records there share the name, a confirmed delete leaves
      the page showing what a fresh listing of the scope would show. The
      scope here is the upload's, untrimmed; the page's list was fetched
      for the trimmed scope, so this is the page's situation only when
      zone and branch carry no edge whitespace (`UploadAndFetchScopesAgree`). */
  lemma DeleteMatchesServerForUniqueNames(cfg: PageConfig, st: FileStore.Store, fileToDelete: string,
                                          zone: string, branch: string, token: Option<string>, gridOk: bool)
    requires HasToken(token)
    requires var scope := UploadScope(cfg, zone, branch);
      forall i, j :: 0 <= i < j < |st.records| && FileStore.Names(scope, Trim(fileToDelete))(st.records[i])
        ==> !FileStore.Names(scope, Trim(fileToDelete))(st.records[j])
    ensures var scope := UploadScope(cfg, zone, branch);
      var out := FileStore.DeleteFile(st, scope, Trim(fileToDelete), true, true, gridOk);
      var r := DeleteConfirm(cfg, fileToDelete, zone, branch, token, DeleteReply(out.response),
                             FileStore.ScopeRecords(st.records, scope));
      out.response.Deleted? ==> r.files == FileStore.ScopeRecords(out.store.records, scope)
  {
    var scope := UploadScope(cfg, zone, branch);
    var name := Trim(fileToDelete);
    TrimIdempotent(fileToDelete);
    var out := FileStore.DeleteFile(st, scope, name, true, true, gridOk);
    if out.response.Deleted? {
      var i := DeletedIndex(st, scope, name, gridOk);
      OnlyMatch(st.records, scope, name, i);
      RemoveUniqueMatch(st.records, scope, name, i);
      PageFilterAfterDelete(cfg, fileToDelete, zone, branch, token, FileStore.ScopeRecords(st.records, scope));
    }
  }

  /** When no two records match, the one found is the only match. */
  lemma OnlyMatch(records: seq<FileRecord>, scope: Scope, name: string, i: nat)
    requires i < |records| && FileStore.Names(scope, name)(records[i])
    requires forall a, b :: 0 <= a < b < |records| && FileStore.Names(scope, name)(records[a]) ==>
                              !FileStore.Names(scope, name)(records[b])
    ensures forall j :: 0 <= j < |records| && j != i ==> !FileStore.Names(scope, name)(records[j])
  {
    forall j | 0 <= j < |records| && j != i ensures !FileStore.Names(scope, name)(records[j]) {
      if i < j {
        assert FileStore.Names(scope, name)(records[i]);
      }
    }
  }

  /** After a 200 reply the page keeps the listed files not named as the
      trimmed name. */
  lemma PageFilterAfterDelete(cfg: PageConfig, fileToDelete: string, zone: string, branch: string,
                              token: Option<string>, files: seq<FileRecord>)
    requires HasToken(token)
    ensures DeleteConfirm(cfg, fileToDelete, zone, branch, token, Answered(200, []), files).files
            == Filter(files, NotNamed(Trim(fileToDelete)))
  {
  }

  /** Without unique names the two disagree: with two records of the
      scope under one name, the page hides both while the server removes
      only the first, so the next listing brings the second back. */
  lemma DuplicateNamesDiverge(cfg: PageConfig, st: FileStore.Store, fileToDelete: string,
                              zone: string, branch: string, token: Option<string>)
    requires HasToken(token) && Trim(fileToDelete) == fileToDelete
    requires var scope := UploadScope(cfg, zone, branch);
      |st.records| == 2 && forall k :: 0 <= k < 2 ==> FileStore.Names(scope, fileToDelete)(st.records[k])
    ensures var scope := UploadScope(cfg, zone, branch);
      var out := FileStore.DeleteFile(st, scope, fileToDelete, true, true, true);
      var r := DeleteConfirm(cfg, fileToDelete, zone, branch, token, DeleteReply(out.response),
                             FileStore.ScopeRecords(st.records, scope));
      && out.response.Deleted?
      && r.files == []
      && FileStore.ScopeRecords(out.store.records, scope) == [st.records[1]]
  {
    var scope := UploadScope(cfg, zone, branch);
    DeleteFirstOfTwo(st, scope, fileToDelete);
    PageDropsAllNamed(cfg, fileToDelete, zone, branch, token, FileStore.ScopeRecords(st.records, scope));
  }

  /** After a confirmed delete the page drops every listed file that
      carries the name. */
  lemma PageDropsAllNamed(cfg: PageConfig, name: string, zone: string, branch: string,
                          token: Option<string>, files: seq<FileRecord>)
    requires HasToken(token) && Trim(name) == name
    requires forall f :: f in files ==> f.filename == name
    ensures DeleteConfirm(cfg, name, zone, branch, token, Answered(200, []), files).files == []
  {
    assert forall j :: 0 <= j < |files| ==> !NotNamed(name)(files[j]) by {
      forall j | 0 <= j < |files| ensures !NotNamed(name)(files[j]) {
        assert files[j] in files;
      }
    }
    FilterDropsAll(files, NotNamed(name));
  }

  /** With two records of the scope under one name, the server deletes the
      first and keeps the second. */
  lemma DeleteFirstOfTwo(st: FileStore.Store, scope: Scope, name: string)
    requires Trim(name) == name
    requires |st.records| == 2 && forall k :: 0 <= k < 2 ==> FileStore.Names(scope, name)(st.records[k])
    ensures var out := FileStore.DeleteFile(st, scope, name, true, true, true);
      && DeleteReply(out.response) == Answered(200, [])
      && out.response == FileStore.Deleted && out.store.records == [st.records[1]]
      && FileStore.ScopeRecords(out.store.records, scope) == [st.records[1]]
      && forall f :: f in FileStore.ScopeRecords(st.records, scope) ==> f.filename == name
  {
    assert st.records == [st.records[0], st.records[1]];
    assert FileStore.Names(scope, name)(st.records[0]);
    assert FileStore.FindFirst(st.records, FileStore.Names(scope, name)) == Some(0);
    assert RemoveAt(st.records, 0) == [st.records[1]];
  }

  /** The index of the record a successful server delete removed. */
  lemma DeletedIndex(st: FileStore.Store, scope: Scope, name: string, gridOk: bool) returns (i: nat)
    requires Trim(name) == name
    requires FileStore.DeleteFile(st, scope, name, true, true, gridOk).response.Deleted?
    ensures i < |st.records| && FileStore.Names(scope, name)(st.records[i])
    ensures forall j :: 0 <= j < i ==> !FileStore.Names(scope, name)(st.records[j])
    ensures FileStore.DeleteFile(st, scope, name, true, true, gridOk).store.records == RemoveAt(st.records, i)
    ensures DeleteReply(FileStore.DeleteFile(st, scope, name, true, true, gridOk).response) == Answered(200, [])
  {
    var out := FileStore.DeleteFile(st, scope, name, true, true, gridOk);
    i :| 0 <= i < |st.records|
      && st.records[i].filename == name && st.records[i].scope == scope
      && (forall j :: 0 <= j < i ==> !FileStore.Names(scope, name)(st.records[j]))
      && out.store.records == RemoveAt(st.records, i);
  }

  /** Removing the only record of `scope` named `name` from the store is,
      seen through the scope, dropping every entry with that name. */
  lemma RemoveUniqueMatch(records: seq<FileRecord>, scope: Scope, name: string, i: nat)
    requires i < |records| && FileStore.Names(scope, name)(records[i])
    requires forall j :: 0 <= j < |records| && j != i ==> !FileStore.Names(scope, name)(records[j])
    ensures FileStore.ScopeRecords(RemoveAt(records, i), scope)
            == Filter(FileStore.ScopeRecords(records, scope), NotNamed(name))
  {
    FilterRemoveAt(records, i, FileStore.InScope(scope), NotNamed(name));
  }
}

=== FILE: file_store.dfy ===
/** The server's file controller as a state machine over an abstract store:
    metadata records (the `File` collection) beside a blob map (the GridFS
    bucket). Uploads are gated by a MIME whitelist, numbered per
    (category, zone, branch) scope, written blob-first; deletes remove the
    record first and the blob second. */
module FileStore {
  import opened Wrappers
  import opened Seqs
  import opened Strings

  newtype byte = x: int | 0 <= x < 256

  /** GridFS object ids; the store hands them out in increasing order. */
  type FileId = nat

  /** The (category, zone, branch) triple from the route that scopes a file. */
  datatype Scope = Scope(category: string, zone: string, branch: string)

  /** A file as the multipart middleware delivers it. */
  datatype UploadedFile = UploadedFile(originalname: string, mimetype: string, buffer: seq<byte>)

  /** A metadata document of the `File` model. */
  datatype FileRecord = FileRecord(
    filename: string,
    filetype: string,
    fileId: FileId,
    scope: Scope,
    fileNumber: string,
    compressionApplied: bool)

  /** A GridFS file: its name, content type, metadata and bytes. */
  datatype Blob = Blob(
    filename: string,
    contentType: string,
    scope: Scope,
    fileNumber: string,
    compressionApplied: bool,
    data: seq<byte>)

  datatype Store = Store(records: seq<FileRecord>, blobs: map<FileId, Blob>, nextId: FileId)

  const EmptyStore: Store := Store([], map[], 0)

  /** What a handler answers; `Rejected` is the whitelist error handed to
      the framework's error handling. */
  datatype Response =
    | Listed(files: seq<FileRecord>)
    | Created(fileId: FileId)
    | Deleted
    | NotFound
    | ServerError
    | Rejected(message: string)

  /** The HTTP status each response is sent with (an error passed on by the
      middleware gets the framework's default, 500). */
  function Status(r: Response): nat
  {
    match r
    case Listed(_) => 200
    case Created(_) => 201
    case Deleted => 200
    case NotFound => 404
    case ServerError => 500
    case Rejected(_) => 500
  }

  datatype Outcome = Outcome(response: Response, store: Store)

  // ---------------------------------------------------------------------
  // Invariant

  /** Every metadata record names a blob that exists. */
  ghost predicate MetadataPointsAtBlobs(st: Store)
  {
    forall i :: 0 <= i < |st.records| ==> st.records[i].fileId in st.blobs
  }

  /** The inductive invariant: records point at blobs, ids still to be handed
      out are fresh, and no two records share a blob. */
  ghost predicate Valid(st: Store)
  {
    && MetadataPointsAtBlobs(st)
    && (forall id :: id in st.blobs ==> id < st.nextId)
    && (forall i, j :: 0 <= i < j < |st.records| ==> st.records[i].fileId != st.records[j].fileId)
  }

  lemma EmptyStoreValid()
    ensures Valid(EmptyStore)
  {
  }

  // ---------------------------------------------------------------------
  // Upload filter

  /** The whitelist, in the source's order (the two longest literals are
      written as a concatenation only to keep lines short). */
  const AllowedMimeTypes: seq<string> := [
    "image/png",
    "image/jpeg",
    "image/webp",
    "application/pdf",
    "application/" + "vnd.openxmlformats-officedocument.wordprocessingml.document",
    "application/vnd.ms-excel",
    "application/" + "vnd.openxmlformats-officedocument.spreadsheetml.sheet",
    "text/csv",
    "application/txt"
  ]

  const InvalidTypeMessage: string :=
    "Invalid file type! Only PNG, JPEG, WebP, PDF, DOCX, XLS, XLSX, and CSV files are allowed."

  predicate MimeAllowed(mimetype: string)
  {
    mimetype in AllowedMimeTypes
  }

  /** The middleware's file filter: `None` accepts the file, `Some(message)`
      rejects it with that error. */
  function FileFilter(mimetype: string): (r: Option<string>)
    ensures r.None? <==> MimeAllowed(mimetype)
    ensures r.Some? ==> r.value == InvalidTypeMessage
  {
    if mimetype in AllowedMimeTypes then None else Some(InvalidTypeMessage)
  }

  /** Of the whitelisted types, exactly PNG, JPEG and WebP are images. */
  lemma AllowedImagesAreExactly(mimetype: string)
    ensures MimeAllowed(mimetype) && StartsWith(mimetype, "image/")
            <==> mimetype in ["image/png", "image/jpeg", "image/webp"]
  {
    assert forall k :: 3 <= k < |AllowedMimeTypes| ==> AllowedMimeTypes[k][0] != 'i' by {
      forall k | 3 <= k < |AllowedMimeTypes| ensures AllowedMimeTypes[k][0] != 'i' {
        var m := AllowedMimeTypes[k];
        if k == 3 { assert m == "application/pdf"; assert m[0] == 'a'; }
        else if k == 4 { assert m == "application/" + "vnd.openxmlformats-officedocument.wordprocessingml.document"; assert m[0] == 'a'; }
        else if k == 5 { assert m == "application/vnd.ms-excel"; assert m[0] == 'a'; }
        else if k == 6 { assert m == "application/" + "vnd.openxmlformats-officedocument.spreadsheetml.sheet"; assert m[0] == 'a'; }
        else if k == 7 { assert m == "text/csv"; assert m[0] == 't'; }
        else { assert m == "application/txt"; assert m[0] == 'a'; }
      }
    }
    if MimeAllowed(mimetype) && StartsWith(mimetype, "image/") {
      assert mimetype[0] == "image/"[0];
      var k :| 0 <= k < |AllowedMimeTypes| && AllowedMimeTypes[k] == mimetype;
      assert k < 3;
    }
    assert "image/png"[..6] == "image/";
    assert "image/jpeg"[..6] == "image/";
    assert "image/webp"[..6] == "image/";
  }

  // ---------------------------------------------------------------------
  // File numbers

  /** Predicate selecting the records of one scope. */
  function InScope(scope: Scope): FileRecord -> bool
  {
    (rec: FileRecord) => rec.scope == scope
  }

  /** The records of `scope`, in store order: the query `find({category,
      zone, branch})`. */
  function ScopeRecords(records: seq<FileRecord>, scope: Scope): seq<FileRecord>
  {
    Filter(records, InScope(scope))
  }

  /** `(count + 1).toString().padStart(5, '0')`: at least five digits,
      exactly five while the number fits, denoting `count + 1`. */
  function FileNumber(count: nat): (n: string)
    ensures AllDigits(n) && |n| >= 5
    ensures DecimalValue(n) == count + 1
    ensures count + 1 < 100000 ==> |n| == 5
  {
    assert Pow10(5) == 100000;
    PaddedDecimal(count + 1, 5)
  }

  /** The number is the library's padding of the plain decimal string. */
  lemma FileNumberIsPadStart(count: nat)
    ensures FileNumber(count) == PadStart(NatToDecimal(count + 1), 5, '0')
  {
    PaddedDecimalIsPadStart(count + 1, 5);
  }

  /** Different counts never give the same number. */
  lemma FileNumberInjective(a: nat, b: nat)
    requires FileNumber(a) == FileNumber(b)
    ensures a == b
  {
  }

  /** The first file of a scope is numbered "00001", the second "00002". */
  lemma FirstFileNumbers()
    ensures FileNumber(0) == "00001"
    ensures FileNumber(1) == "00002"
  {
    assert NatToDecimal(1) == "1";
    assert NatToDecimal(2) == "2";
    assert Repeat('0', 4) == "0000";
  }

  /** The number the next upload into `scope` receives: one more than the
      records the scope holds now; records of other scopes do not count. */
  function NextFileNumber(st: Store, scope: Scope): (n: string)
    ensures AllDigits(n) && |n| >= 5
    ensures DecimalValue(n) == |ScopeRecords(st.records, scope)| + 1
  {
    FileNumber(|ScopeRecords(st.records, scope)|)
  }

  // ---------------------------------------------------------------------
  // Server compression

  datatype Processed = Processed(buffer: seq<byte>, compressionApplied: bool)

  /** The server-side compression step: the PDF and DOCX branches are
      placeholders, so every file goes through untouched. */
  function ApplyServerCompression(file: UploadedFile): (r: Processed)
    ensures r.buffer == file.buffer
    ensures !r.compressionApplied
  {
    if file.mimetype == "application/pdf" then
      Processed(file.buffer, false)
    else if file.mimetype == "application/vnd.openxmlformats-officedocument.wordprocessingml.document" then
      Processed(file.buffer, false)
    else
      Processed(file.buffer, false)
  }

  // ---------------------------------------------------------------------
  // Handlers

  /** `GET /files/:category/:zone/:branch`; `findOk` is whether the
      metadata query succeeded. */
  function ListFiles(st: Store, scope: Scope, findOk: bool): (resp: Response)
    ensures resp.Listed? || resp.NotFound? || resp.ServerError?
    ensures resp.ServerError? <==> !findOk
    ensures resp.NotFound? <==> findOk && forall i :: 0 <= i < |st.records| ==> st.records[i].scope != scope
    ensures resp.Listed? ==> forall rec :: rec in resp.files <==> rec in st.records && rec.scope == scope
    ensures resp.Listed? ==> IsSubsequence(resp.files, st.records)
    ensures resp.Listed? ==> forall rec :: rec in resp.files ==> multiset(resp.files)[rec] == multiset(st.records)[rec]
  {
    var files := ScopeRecords(st.records, scope);
    FilterCounts(st.records, InScope(scope));
    if !findOk then ServerError
    else if |files| == 0 then
      assert forall i :: 0 <= i < |st.records| ==> st.records[i].scope != scope by {
        forall i | 0 <= i < |st.records| ensures st.records[i].scope != scope {
          assert st.records[i] in st.records;
        }
      }
      NotFound
    else
      Listed(files)
  }

  /** The metadata document an accepted upload of `f` into `scope` gets. */
  function NewRecord(st: Store, scope: Scope, f: UploadedFile): FileRecord
  {
    var processed := ApplyServerCompression(f);
    FileRecord(Trim(f.originalname), f.mimetype, st.nextId, scope, NextFileNumber(st, scope), processed.compressionApplied)
  }

  /** The blob an accepted upload of `f` into `scope` writes. */
  function NewBlob(st: Store, scope: Scope, f: UploadedFile): Blob
  {
    var processed := ApplyServerCompression(f);
    Blob(Trim(f.originalname), f.mimetype, scope, NextFileNumber(st, scope), processed.compressionApplied, processed.buffer)
  }

  /** The store after an accepted upload: the blob is written under a fresh
      id, then the record is appended if its save succeeds. */
  function StoreUpload(st: Store, scope: Scope, f: UploadedFile, saveOk: bool): (st': Store)
    ensures Valid(st) ==> Valid(st')
  {
    var rec := NewRecord(st, scope, f);
    var blob := NewBlob(st, scope, f);
    AddBlobKeepsValid(st, rec, blob, saveOk);
    Store(if saveOk then st.records + [rec] else st.records, st.blobs[st.nextId := blob], st.nextId + 1)
  }

  /** Writing a blob under the next id, optionally with a record that
      points at it, keeps the invariant. */
  lemma AddBlobKeepsValid(st: Store, rec: FileRecord, blob: Blob, saveOk: bool)
    requires rec.fileId == st.nextId
    ensures Valid(st) ==>
      Valid(Store(if saveOk then st.records + [rec] else st.records, st.blobs[st.nextId := blob], st.nextId + 1))
  {
    if Valid(st) {
      assert st.nextId !in st.blobs;
      assert forall i :: 0 <= i < |st.records| ==> st.records[i].fileId != st.nextId;
    }
  }

  /** `POST /files/:category/:zone/:branch`. `file` is `None` when the
      request carried no file; `streamOk` says whether the awaited steps
      succeeded (counting the scope's files and writing the blob: either
      failing reaches the same 500), and `saveOk` whether the unawaited
      metadata save did. */
  function UploadFile(st: Store, scope: Scope, file: Option<UploadedFile>, streamOk: bool, saveOk: bool): (out: Outcome)
    ensures Valid(st) ==> Valid(out.store)
    ensures out.response.Created? <==> file.Some? && MimeAllowed(file.value.mimetype) && streamOk
    ensures !out.response.Created? ==> out.store == st
    ensures file.None? ==> out.response == ServerError
    ensures file.Some? && !MimeAllowed(file.value.mimetype) ==> out.response == Rejected(InvalidTypeMessage)
    ensures file.Some? && MimeAllowed(file.value.mimetype) && !streamOk ==> out.response == ServerError
  {
    match file
    case None => Outcome(ServerError, st)
    case Some(f) =>
      match FileFilter(f.mimetype)
      case Some(message) => Outcome(Rejected(message), st)
      case None =>
        if !streamOk then Outcome(ServerError, st)
        else Outcome(Created(st.nextId), StoreUpload(st, scope, f, saveOk))
  }

  /** An accepted upload answers 201 with a fresh id, stores the bytes
      unchanged under the trimmed name without touching other blobs, and,
      when the save succeeds, appends one record carrying the trimmed name,
      the MIME type, the scope, the blob's id and the next number of the
      scope; a failed save leaves the records as they were. */
  lemma UploadWritesBlobThenRecord(st: Store, scope: Scope, f: UploadedFile, saveOk: bool)
    requires Valid(st)
    requires MimeAllowed(f.mimetype)
    ensures var out := UploadFile(st, scope, Some(f), true, saveOk);
      && Status(out.response) == 201
      && out.response.fileId !in st.blobs.Keys
      && out.store.blobs.Keys == st.blobs.Keys + {out.response.fileId}
      && (forall id :: id in st.blobs ==> out.store.blobs[id] == st.blobs[id])
      && out.store.blobs[out.response.fileId].data == f.buffer
      && out.store.blobs[out.response.fileId].filename == Trim(f.originalname)
      && (!saveOk ==> out.store.records == st.records)
      && (saveOk ==>
            && |out.store.records| == |st.records| + 1
            && out.store.records[..|st.records|] == st.records
            && out.store.records[|st.records|].filename == Trim(f.originalname)
            && out.store.records[|st.records|].filetype == f.mimetype
            && out.store.records[|st.records|].scope == scope
            && out.store.records[|st.records|].fileId == out.response.fileId
            && DecimalValue(out.store.records[|st.records|].fileNumber) == |ScopeRecords(st.records, scope)| + 1)
  {
    var out := UploadFile(st, scope, Some(f), true, saveOk);
    assert out.store == StoreUpload(st, scope, f, saveOk);
    if saveOk {
      assert out.store.records == st.records + [NewRecord(st, scope, f)];
    }
  }

  /** The record `deleteFile` looks for: this name in this scope. */
  function Names(scope: Scope, name: string): FileRecord -> bool
  {
    (rec: FileRecord) => rec.filename == name && rec.scope == scope
  }

  /** `findOne`: the first record satisfying `p`, in insertion order. */
  function FindFirst(records: seq<FileRecord>, p: FileRecord -> bool): (r: Option<nat>)
    ensures r.None? <==> forall i :: 0 <= i < |records| ==> !p(records[i])
    ensures r.Some? ==> r.value < |records| && p(records[r.value])
    ensures r.Some? ==> forall j :: 0 <= j < r.value ==> !p(records[j])
  {
    FirstIndex(records, p)
  }

  /** `DELETE /files/:category/:zone/:branch/:filename`. `findOk` says
      whether the metadata lookup succeeded, `dbOk` whether deleting the
      metadata document did, `gridOk` whether deleting the blob did. */
  function DeleteFile(st: Store, scope: Scope, filename: string, findOk: bool, dbOk: bool, gridOk: bool): (out: Outcome)
    ensures Valid(st) ==> Valid(out.store)
    ensures !findOk ==> out == Outcome(ServerError, st)
    ensures out.response.NotFound? <==>
      findOk && forall i :: 0 <= i < |st.records| ==> !Names(scope, Trim(filename))(st.records[i])
    ensures out.response.NotFound? ==> out.store == st
    ensures !dbOk && !out.response.NotFound? ==> out == Outcome(ServerError, st)
    ensures out.response.Deleted? <==>
      findOk && dbOk && gridOk && exists i :: 0 <= i < |st.records| && Names(scope, Trim(filename))(st.records[i])
    ensures findOk && dbOk && !out.response.NotFound? ==>
      exists i :: 0 <= i < |st.records|
        && st.records[i].filename == Trim(filename) && st.records[i].scope == scope
        && (forall j :: 0 <= j < i ==> !Names(scope, Trim(filename))(st.records[j]))
        && out.store.records == RemoveAt(st.records, i)
        && out.store.blobs == (if gridOk then st.blobs - {st.records[i].fileId} else st.blobs)
        && out.response == (if gridOk then Deleted else ServerError)
  {
    var name := Trim(filename);
    if !findOk then Outcome(ServerError, st)
    else match FindFirst(st.records, Names(scope, name))
    case None => Outcome(NotFound, st)
    case Some(i) =>
      if !dbOk then Outcome(ServerError, st)
      else
        var rec := st.records[i];
        var records := RemoveAt(st.records, i);
        var blobs := if gridOk then st.blobs - {rec.fileId} else st.blobs;
        var st' := Store(records, blobs, st.nextId);
        RemoveKeepsValid(st, i, gridOk);
        Outcome(if gridOk then Deleted else ServerError, st')
  }

  /** Removing one record, and optionally its blob, keeps the invariant. */
  lemma RemoveKeepsValid(st: Store, i: nat, gridOk: bool)
    requires i < |st.records|
    ensures var blobs := if gridOk then st.blobs - {st.records[i].fileId} else st.blobs;
      Valid(st) ==> Valid(Store(RemoveAt(st.records, i), blobs, st.nextId))
  {
    var records := RemoveAt(st.records, i);
    var blobs := if gridOk then st.blobs - {st.records[i].fileId} else st.blobs;
    if Valid(st) {
      forall k | 0 <= k < |records| ensures records[k].fileId in blobs {
        var k0 := if k < i then k else k + 1;
        assert records[k] == st.records[k0];
        assert k0 != i;
      }
      forall a, b | 0 <= a < b < |records| ensures records[a].fileId != records[b].fileId {
        var a0 := if a < i then a else a + 1;
        var b0 := if b < i then b else b + 1;
        assert records[a] == st.records[a0] && records[b] == st.records[b0];
      }
    }
  }

  // ---------------------------------------------------------------------
  // Operation sequences

  datatype Op =
    | UploadOp(scope: Scope, file: Option<UploadedFile>, streamOk: bool, saveOk: bool)
    | DeleteOp(scope: Scope, filename: string, findOk: bool, dbOk: bool, gridOk: bool)
    | ListOp(scope: Scope)

  function Step(st: Store, op: Op): Store
  {
    match op
    case UploadOp(scope, file, streamOk, saveOk) => UploadFile(st, scope, file, streamOk, saveOk).store
    case DeleteOp(scope, filename, findOk, dbOk, gridOk) => DeleteFile(st, scope, filename, findOk, dbOk, gridOk).store
    case ListOp(_) => st
  }

  function Run(st: Store, ops: seq<Op>): Store
    decreases |ops|
  {
    if ops == [] then st else Run(Step(st, ops[0]), ops[1..])
  }

  /** Any sequence of requests, whichever storage steps fail, keeps the
      invariant. */
  lemma {:induction false} RunPreservesValid(st: Store, ops: seq<Op>)
    requires Valid(st)
    ensures Valid(Run(st, ops))
    decreases |ops|
  {
    if ops != [] {
      RunPreservesValid(Step(st, ops[0]), ops[1..]);
    }
  }

  /** Starting from an empty store, no metadata record ever names a missing
      blob. */
  lemma MetadataNeverDangles(ops: seq<Op>)
    ensures MetadataPointsAtBlobs(Run(EmptyStore, ops))
  {
    EmptyStoreValid();
    RunPreservesValid(EmptyStore, ops);
  }

  /** For an accepted type, a fully successful `UploadFile` leaves the
      store that `StoreUpload` with a successful save builds. */
  lemma UploadStepIsAccepted(st: Store, scope: Scope, f: UploadedFile)
    requires MimeAllowed(f.mimetype)
    ensures UploadFile(st, scope, Some(f), true, true) == Outcome(Created(st.nextId), StoreUpload(st, scope, f, true))
  {
  }

  /** Uploading `files` one after another into `scope`, every step
      succeeding (each step is `UploadFile` by `UploadStepIsAccepted`). */
  function UploadAll(st: Store, scope: Scope, files: seq<UploadedFile>): Store
    decreases |files|
  {
    if files == [] then st
    else UploadAll(StoreUpload(st, scope, files[0], true), scope, files[1..])
  }

  /** A fully successful upload appends one record, carrying the trimmed
      name and the next number of its scope, and that scope then holds one
      record more. */
  lemma UploadAppends(st: Store, scope: Scope, f: UploadedFile)
    ensures var st1 := StoreUpload(st, scope, f, true);
      var rec := NewRecord(st, scope, f);
      && st1.records == st.records + [rec]
      && |ScopeRecords(st1.records, scope)| == |ScopeRecords(st.records, scope)| + 1
      && rec.scope == scope && rec.filename == Trim(f.originalname)
      && rec.fileNumber == FileNumber(|ScopeRecords(st.records, scope)|)
  {
    var rec := NewRecord(st, scope, f);
    FilterAppend(st.records, [rec], InScope(scope));
  }

  /** Prefix bookkeeping: if `all` extends `pre + [x]`, it extends `pre`
      and holds `x` right after it. */
  lemma PrefixStep<T>(all: seq<T>, mid: seq<T>, pre: seq<T>, x: T)
    requires mid == pre + [x]
    requires |mid| <= |all| && all[..|mid|] == mid
    ensures all[..|pre|] == pre && all[|pre|] == x && all[|pre|..][1..] == all[|mid|..]
  {
    assert all[..|pre|] == all[..|mid|][..|pre|];
    assert all[|pre|] == all[..|mid|][|pre|];
  }

  /** Successful uploads keep the existing records and append one each. */
  lemma {:induction false} UploadAllExtends(st: Store, scope: Scope, files: seq<UploadedFile>)
    ensures var st' := UploadAll(st, scope, files);
      |st'.records| == |st.records| + |files| && st'.records[..|st.records|] == st.records
    decreases |files|
  {
    if files == [] {
      assert st.records[..|st.records|] == st.records;
    } else {
      var st1 := StoreUpload(st, scope, files[0], true);
      UploadAppends(st, scope, files[0]);
      UploadAllExtends(st1, scope, files[1..]);
      var st' := UploadAll(st1, scope, files[1..]);
      PrefixStep(st'.records, st1.records, st.records, NewRecord(st, scope, files[0]));
    }
  }

  /** `added` are the records that successful uploads of `files` into
      `scope` append when the scope already holds `c` records: the k-th
      carries the k-th trimmed name and number `c + k + 1`. */
  ghost predicate NumberedFrom(added: seq<FileRecord>, scope: Scope, c: nat, files: seq<UploadedFile>)
  {
    |added| == |files| && forall k :: 0 <= k < |files| ==> Entry(added[k], scope, files[k], c + k)
  }

  /** The record a successful upload of `f` appends when the scope already
      holds `c` records. */
  ghost predicate Entry(r: FileRecord, scope: Scope, f: UploadedFile, c: nat)
  {
    r.scope == scope && r.filename == Trim(f.originalname) && r.fileNumber == FileNumber(c)
  }

  /** A first entry followed by a run numbered from the next count is a
      run numbered from this one. */
  lemma NumberedCons(added: seq<FileRecord>, scope: Scope, c: nat, files: seq<UploadedFile>)
    requires |added| == |files| > 0
    requires Entry(added[0], scope, files[0], c)
    requires NumberedFrom(added[1..], scope, c + 1, files[1..])
    ensures NumberedFrom(added, scope, c, files)
  {
    forall k | 0 < k < |files|
      ensures Entry(added[k], scope, files[k], c + k)
    {
      assert added[1..][k - 1] == added[k];
      assert files[1..][k - 1] == files[k];
      assert c + 1 + (k - 1) == c + k;
    }
  }

  /** Successful uploads into one scope append one record each, numbered
      consecutively after the records the scope already held. */
  lemma {:induction false} UploadsNumberedInOrder(st: Store, scope: Scope, files: seq<UploadedFile>)
    ensures var st' := UploadAll(st, scope, files);
      && |st'.records| == |st.records| + |files|
      && NumberedFrom(st'.records[|st.records|..], scope, |ScopeRecords(st.records, scope)|, files)
    decreases |files|
  {
    if files != [] {
      var st1 := StoreUpload(st, scope, files[0], true);
      UploadAppends(st, scope, files[0]);
      UploadsNumberedInOrder(st1, scope, files[1..]);
      var st' := UploadAll(st1, scope, files[1..]);
      UploadAllExtends(st1, scope, files[1..]);
      NumberedStep(st'.records, st.records, NewRecord(st, scope, files[0]), scope,
                   |ScopeRecords(st.records, scope)|, files);
    }
  }

  /** The inductive step of `UploadsNumberedInOrder`, on plain lists:
      `all` extends `pre + [rec]`, `rec` is the entry for the first file,
      and what follows is numbered from the next count. */
  lemma NumberedStep(all: seq<FileRecord>, pre: seq<FileRecord>, rec: FileRecord, scope: Scope, c: nat,
                     files: seq<UploadedFile>)
    requires files != [] && |all| == |pre| + |files|
    requires all[..|pre| + 1] == pre + [rec]
    requires Entry(rec, scope, files[0], c)
    requires NumberedFrom(all[|pre| + 1..], scope, c + 1, files[1..])
    ensures NumberedFrom(all[|pre|..], scope, c, files)
  {
    assert all[|pre|] == all[..|pre| + 1][|pre|];
    assert all[|pre|..][1..] == all[|pre| + 1..];
    NumberedCons(all[|pre|..], scope, c, files);
  }

  /** Into an empty store, the k-th successful upload (counting from 1)
      receives number k, zero-padded to five digits. */
  lemma KthUploadGetsNumberK(scope: Scope, files: seq<UploadedFile>, k: nat)
    requires k < |files|
    ensures var st' := UploadAll(EmptyStore, scope, files);
      && |st'.records| == |files|
      && st'.records[k].fileNumber == FileNumber(k)
      && DecimalValue(st'.records[k].fileNumber) == k + 1
  {
    var st' := UploadAll(EmptyStore, scope, files);
    UploadsNumberedInOrder(EmptyStore, scope, files);
    assert ScopeRecords(EmptyStore.records, scope) == [];
    EntryAt(st'.records[0..], scope, 0, files, k);
    assert st'.records[0..][k] == st'.records[k];
  }

  /** The k-th record of a numbered run is the entry for the k-th file. */
  lemma EntryAt(added: seq<FileRecord>, scope: Scope, c: nat, files: seq<UploadedFile>, k: nat)
    requires NumberedFrom(added, scope, c, files) && k < |files|
    ensures k < |added| && Entry(added[k], scope, files[k], c + k)
  {
  }

  /** File numbers are not unique: after two uploads into an empty store,
      deleting the first and uploading again hands out "00002" a second
      time. */
  lemma FileNumberReissued(scope: Scope, f1: UploadedFile, f2: UploadedFile, f3: UploadedFile)
    requires MimeAllowed(f1.mimetype) && MimeAllowed(f2.mimetype) && MimeAllowed(f3.mimetype)
    ensures var s1 := UploadFile(EmptyStore, scope, Some(f1), true, true).store;
            var s2 := UploadFile(s1, scope, Some(f2), true, true).store;
            var s3 := DeleteFile(s2, scope, f1.originalname, true, true, true).store;
            var s4 := UploadFile(s3, scope, Some(f3), true, true).store;
            && |s4.records| == 2
            && s4.records[0].fileNumber == "00002"
            && s4.records[1].fileNumber == "00002"
  {
    FirstFileNumbers();
    var s1 := UploadFile(EmptyStore, scope, Some(f1), true, true).store;
    UploadStepIsAccepted(EmptyStore, scope, f1);
    UploadAppends(EmptyStore, scope, f1);
    assert ScopeRecords(EmptyStore.records, scope) == [];
    var s2 := UploadFile(s1, scope, Some(f2), true, true).store;
    UploadStepIsAccepted(s1, scope, f2);
    UploadAppends(s1, scope, f2);
    var s3 := DeleteFile(s2, scope, f1.originalname, true, true, true).store;
    TrimIdempotent(f1.originalname);
    assert Names(scope, Trim(f1.originalname))(s2.records[0]);
    assert s3.records == [s2.records[1]];
    assert ScopeRecords(s3.records, scope) == s3.records;
    UploadStepIsAccepted(s3, scope, f3);
    UploadAppends(s3, scope, f3);
  }

  /** After a successful upload whose metadata was saved, listing the scope
      answers 200 and shows the new record. */
  lemma ListedAfterUpload(st: Store, scope: Scope, f: UploadedFile)
    requires MimeAllowed(f.mimetype)
    ensures var out := UploadFile(st, scope, Some(f), true, true);
            var resp := ListFiles(out.store, scope, true);
            && resp.Listed?
            && Status(resp) == 200
            && out.store.records[|st.records|] in resp.files
  {
    var out := UploadFile(st, scope, Some(f), true, true);
    assert out.store.records[|st.records|] in out.store.records;
  }
}

=== FILE: modules_grid.dfy ===
/** The module grids of the Vehicles and Security sections: a fixed
    catalogue of tiles, cut down to what the signed-in user is registered
    for, with a click that expands a tile or follows its link. */
module ModulesGrid {
  import opened Wrappers
  import opened Seqs
  import opened Strings
  import opened Session

  datatype Subheading = Subheading(title: string, path: string)

  /** A tile. `path` is where a tile without subheadings leads; the
      Vehicles tiles have none. */
  datatype Tile = Tile(name: string, path: Option<string>, subheadings: seq<Subheading>)

  /** A catalogue tile named "<section>_<title>". */
  function SectionTile(section: string, title: string, path: Option<string>, subheadings: seq<Subheading>): Tile
  {
    Tile(section + "_" + title, path, subheadings)
  }

  const MaintenanceEntries: seq<Subheading> := [
    Subheading("Routine Maintenance", "/Vehicles/RoutineMaintainence"),
    Subheading("Major parts/Replacements", "/Vehicles/MajorParts"),
    Subheading("Major Repairs", "/Vehicles/MajorRepairs")]

  const TokenTaxEntries: seq<Subheading> := [
    Subheading("Annual Token Tax", "/Vehicles/AnnualTokenTax"),
    Subheading("M-Tag For SC Vehicles", "/Vehicles/MTag")]

  const RoutePermitEntries: seq<Subheading> := [
    Subheading("Cantt Passes", "/Vehicles/CanttPasses"),
    Subheading("Islamabad Capital Territory", "/Vehicles/Islamabad"),
    Subheading("Rawalpindi", "/Vehicles/Rawalpindi"),
    Subheading("Peshawar", "/Vehicles/Peshawar"),
    Subheading("Wah", "/Vehicles/Wah")]

  const VehicleTiles: seq<Tile> := [
    SectionTile("Vehicles", "Maintenance", None, MaintenanceEntries),
    SectionTile("Vehicles", "Token Taxes", None, TokenTaxEntries),
    SectionTile("Vehicles", "Route Permits", None, RoutePermitEntries)
  ]

  const SecurityTiles: seq<Tile> := [
    SectionTile("Security", "Guard Training", Some("/Security/GuardTraining"), [])
  ]

  function TileName(t: Tile): string
  {
    t.name
  }

  predicate HasSubheadings(t: Tile)
  {
    |t.subheadings| > 0
  }

  // ---------------------------------------------------------------------
  // Labels

  /** `name.split('_')[0]`: the name up to its first '_', or all of it. */
  function NamePrefix(name: string): (r: string)
    ensures '_' !in r && r <= name
    ensures r == name || (|r| < |name| && name[|r|] == '_')
  {
    SplitFirst(name, '_');
    Split(name, '_')[0]
  }

  /** `name.split('_')[1]`, the text under a tile: the first '_'-piece of
      what follows the first '_'; absent when the name has no '_'. */
  function Label(t: Tile): (r: Option<string>)
    ensures r.Some? <==> '_' in t.name
    ensures r.Some? ==> '_' !in r.value
    ensures r.Some? ==>
      var start := |NamePrefix(t.name)| + 1;
      && start <= |t.name|
      && t.name[..start] == NamePrefix(t.name) + "_"
      && r.value == NamePrefix(t.name[start..])
  {
    SecondSegment(t.name);
    Segment(t.name, '_', 1)
  }

  /** Where the second '_'-piece of a name comes from. */
  lemma SecondSegment(name: string)
    ensures Segment(name, '_', 1).Some? <==> '_' in name
    ensures '_' in name ==>
      var start := |NamePrefix(name)| + 1;
      && start <= |name|
      && name[..start] == NamePrefix(name) + "_"
      && Segment(name, '_', 1).value == NamePrefix(name[start..])
  {
    SplitFirst(name, '_');
    if '_' in name {
      var parts := Split(name, '_');
      assert parts[1] == parts[1..][0];
    }
  }

  /** A name built as section, '_', title splits back into those two
      parts. */
  lemma {:induction false} SplitSectionName(section: string, title: string)
    requires '_' !in section && '_' !in title
    ensures Split(section + "_" + title, '_') == [section, title]
    ensures NamePrefix(section + "_" + title) == section
  {
    var parts := [section, title];
    assert Join(parts, '_') == section + "_" + title by {
      assert parts[1..] == [title];
    }
    SplitJoin(parts, '_');
  }

  /** A catalogue tile is labelled with its title. */
  lemma SectionTileLabel(section: string, title: string, path: Option<string>, subheadings: seq<Subheading>)
    requires '_' !in section && '_' !in title
    ensures Label(SectionTile(section, title, path, subheadings)) == Some(title)
    ensures NamePrefix(SectionTile(section, title, path, subheadings).name) == section
  {
    SplitSectionName(section, title);
  }

  /** The Vehicles tiles are labelled Maintenance, Token Taxes and Route
      Permits. */
  lemma VehicleLabels()
    ensures Label(VehicleTiles[0]) == Some("Maintenance")
    ensures Label(VehicleTiles[1]) == Some("Token Taxes")
    ensures Label(VehicleTiles[2]) == Some("Route Permits")
  {
    TitleLabel("Maintenance", MaintenanceEntries);
    TitleLabel("Token Taxes", TokenTaxEntries);
    TitleLabel("Route Permits", RoutePermitEntries);
  }

  /** Every Vehicles tile belongs to the Vehicles section. */
  lemma VehicleTilesInSection()
    ensures forall k :: 0 <= k < |VehicleTiles| ==> NamePrefix(VehicleTiles[k].name) == "Vehicles"
  {
    forall k | 0 <= k < |VehicleTiles| ensures NamePrefix(VehicleTiles[k].name) == "Vehicles" {
      if k == 0 {
        TitleLabel("Maintenance", MaintenanceEntries);
      } else if k == 1 {
        TitleLabel("Token Taxes", TokenTaxEntries);
      } else {
        TitleLabel("Route Permits", RoutePermitEntries);
      }
    }
  }

  /** One Vehicles tile: labelled with its title, in the Vehicles section. */
  lemma TitleLabel(title: string, subheadings: seq<Subheading>)
    requires '_' !in title
    ensures Label(SectionTile("Vehicles", title, None, subheadings)) == Some(title)
    ensures NamePrefix(SectionTile("Vehicles", title, None, subheadings).name) == "Vehicles"
  {
    SectionTileLabel("Vehicles", title, None, subheadings);
  }

  /** The Security tile is labelled Guard Training. */
  lemma SecurityLabel()
    ensures Label(SecurityTiles[0]) == Some("Guard Training")
  {
    SectionTileLabel("Security", "Guard Training", Some("/Security/GuardTraining"), []);
  }

  // ---------------------------------------------------------------------
  // The Vehicles grid

  /** A subheading is granted by the registered name "<section>_<title>" or
      by the tile's own full name. */
  function Granted(t: Tile, modules: seq<string>): Subheading -> bool
  {
    (s: Subheading) => NamePrefix(t.name) + "_" + s.title in modules || t.name in modules
  }

  function KeepGranted(modules: seq<string>): Tile -> Tile
  {
    (t: Tile) => t.(subheadings := Filter(t.subheadings, Granted(t, modules)))
  }

  /** The tiles left once each keeps only its granted subheadings and
      tiles with none left are dropped. */
  function GrantedTiles(tiles: seq<Tile>, modules: seq<string>): (r: seq<Tile>)
    ensures forall i :: 0 <= i < |r| ==> HasSubheadings(r[i])
    ensures forall t :: t in r <==> t in Map(tiles, KeepGranted(modules)) && HasSubheadings(t)
    ensures IsSubsequence(r, Map(tiles, KeepGranted(modules)))
  {
    Filter(Map(tiles, KeepGranted(modules)), HasSubheadings)
  }

  /** The Vehicles grid the viewer sees; `None` when rendering throws
      because the user record has no module list. */
  function VehicleGrid(viewer: Option<SignedInUser>): (r: Option<seq<Tile>>)
    ensures viewer.None? ==> r == Some([])
    ensures r.None? <==> viewer.Some? && !viewer.value.registeredModules.Modules?
    ensures viewer.Some? && viewer.value.registeredModules.Modules? ==>
      r == Some(GrantedTiles(VehicleTiles, viewer.value.registeredModules.names))
  {
    match viewer
    case None => Some([])
    case Some(u) =>
      match u.registeredModules
      case Modules(names) => Some(GrantedTiles(VehicleTiles, names))
      case _ => None
  }

  /** A subheading survives exactly when "<section>_<title>" or the tile's
      full name is registered. */
  lemma SubheadingSurvivesIff(t: Tile, modules: seq<string>, s: Subheading)
    ensures s in KeepGranted(modules)(t).subheadings <==>
      s in t.subheadings && (NamePrefix(t.name) + "_" + s.title in modules || t.name in modules)
    ensures IsSubsequence(KeepGranted(modules)(t).subheadings, t.subheadings)
  {
  }

  /** A tile is shown exactly when one of its subheadings survives, and then
      with the surviving ones only. */
  lemma TileShownIff(tiles: seq<Tile>, modules: seq<string>, k: nat)
    requires k < |tiles|
    ensures KeepGranted(modules)(tiles[k]) in GrantedTiles(tiles, modules) <==>
      exists s :: s in tiles[k].subheadings && Granted(tiles[k], modules)(s)
  {
    var t := KeepGranted(modules)(tiles[k]);
    assert Map(tiles, KeepGranted(modules))[k] == t;
    if exists s :: s in tiles[k].subheadings && Granted(tiles[k], modules)(s) {
      var s :| s in tiles[k].subheadings && Granted(tiles[k], modules)(s);
      assert s in t.subheadings;
    }
  }

  /** Registering a tile's full name grants every one of its subheadings. */
  lemma FullNameGrantsWholeTile(t: Tile, modules: seq<string>)
    requires t.name in modules
    ensures KeepGranted(modules)(t) == t
  {
    FilterKeepsAll(t.subheadings, Granted(t, modules));
  }

  /** The shown tiles keep the catalogue's order. */
  lemma GrantedTilesKeepOrder(tiles: seq<Tile>, modules: seq<string>)
    ensures IsSubsequence(Map(GrantedTiles(tiles, modules), TileName), Map(tiles, TileName))
  {
    var kept := Map(tiles, KeepGranted(modules));
    SubsequenceMap(GrantedTiles(tiles, modules), kept, TileName);
    assert Map(kept, TileName) == Map(tiles, TileName);
  }

  // ---------------------------------------------------------------------
  // The Security grid

  /** Characters the Security grid ignores when matching: whitespace and
      '/'. */
  predicate Kept(c: char)
  {
    !IsSpace(c) && c != '/'
  }

  /** `s.replace(/\s|\//g, '')`. */
  function Strip(s: string): (r: string)
    ensures forall i :: 0 <= i < |r| ==> Kept(r[i])
    ensures forall c :: c in r <==> c in s && Kept(c)
  {
    Filter(s, Kept)
  }

  function StrippedMatch(modules: seq<string>): Tile -> bool
  {
    (t: Tile) => Strip(t.name) in Map(modules, Strip)
  }

  /** A tile matches exactly when some registered name strips to the same
      string as the tile's name. */
  lemma StrippedMatchIff(names: seq<string>, t: Tile)
    ensures StrippedMatch(names)(t) <==> exists m :: m in names && Strip(m) == Strip(t.name)
  {
    if StrippedMatch(names)(t) {
      var i :| 0 <= i < |names| && Map(names, Strip)[i] == Strip(t.name);
      assert names[i] in names;
    }
    if exists m :: m in names && Strip(m) == Strip(t.name) {
      var m :| m in names && Strip(m) == Strip(t.name);
      var i :| 0 <= i < |names| && names[i] == m;
      assert Map(names, Strip)[i] == Strip(t.name);
    }
  }

  /** The Security grid the viewer sees: the tiles some registered name
      matches once whitespace and '/' are removed from both. */
  function SecurityGrid(viewer: Option<SignedInUser>): (r: Option<seq<Tile>>)
    ensures viewer.None? ==> r == Some([])
    ensures r.None? <==> viewer.Some? && !viewer.value.registeredModules.Modules?
    ensures viewer.Some? && viewer.value.registeredModules.Modules? ==>
      forall t :: t in r.value <==>
        t in SecurityTiles && exists m :: m in viewer.value.registeredModules.names && Strip(m) == Strip(t.name)
    ensures r.Some? ==> IsSubsequence(r.value, SecurityTiles)
  {
    match viewer
    case None => Some([])
    case Some(u) =>
      match u.registeredModules
      case Modules(names) =>
        var r := Filter(SecurityTiles, StrippedMatch(names));
        forall t
          ensures StrippedMatch(names)(t) <==> exists m :: m in names && Strip(m) == Strip(t.name)
        {
          StrippedMatchIff(names, t);
        }
        Some(r)
      case _ => None
  }

  /** Stripping twice changes nothing more. */
  lemma StripIdempotent(s: string)
    ensures Strip(Strip(s)) == Strip(s)
  {
    FilterIdempotent(s, Kept);
  }

  /** Inserting a space or a '/' anywhere in a registered name does not
      change whether it matches. */
  lemma StripIgnoresInsertedSeparator(a: string, c: char, b: string)
    requires !Kept(c)
    ensures Strip(a + [c] + b) == Strip(a + b)
  {
    FilterAppend(a + [c], b, Kept);
    FilterAppend(a, [c], Kept);
    FilterAppend(a, b, Kept);
  }

  // ---------------------------------------------------------------------
  // Clicking a tile

  datatype GridKind = Vehicles | Security

  /** The expanded tile after a click, and where the page navigates, if
      anywhere. */
  datatype ClickResult = ClickResult(expanded: Option<nat>, navigateTo: Option<string>)

  /** `handleTileClick`: a tile with subheadings toggles its expansion; a
      tile without them leads to its path on the Security grid and does
      nothing on the Vehicles grid. */
  function TileClick(kind: GridKind, expanded: Option<nat>, index: nat, t: Tile): (r: ClickResult)
    ensures HasSubheadings(t) ==> r.navigateTo == None && (r.expanded == Some(index) <==> expanded != Some(index))
    ensures HasSubheadings(t) && expanded == Some(index) ==> r.expanded == None
    ensures !HasSubheadings(t) ==> r.expanded == expanded
    ensures !HasSubheadings(t) ==> r.navigateTo == (if kind == Security then t.path else None)
  {
    if HasSubheadings(t) then ClickResult(if expanded == Some(index) then None else Some(index), None)
    else if kind == Security then ClickResult(expanded, t.path)
    else ClickResult(expanded, None)
  }

  /** Clicking the same tile twice puts the grid back when nothing else was
      open; if another tile was open, the second click leaves all closed. */
  lemma ClickTwice(kind: GridKind, expanded: Option<nat>, index: nat, t: Tile)
    requires HasSubheadings(t)
    ensures var once := TileClick(kind, expanded, index, t).expanded;
      var twice := TileClick(kind, once, index, t).expanded;
      (expanded == None || expanded == Some(index) ==> twice == expanded)
      && (expanded != None && expanded != Some(index) ==> twice == None)
  {
  }

  /** Every shown Vehicles tile expands on a click, never navigates; every
      shown Security tile leads to the guard training page. */
  lemma ShownTilesClick(viewer: Option<SignedInUser>, expanded: Option<nat>, k: nat)
    ensures var g := VehicleGrid(viewer);
      g.Some? && k < |g.value| ==> TileClick(Vehicles, expanded, k, g.value[k]).navigateTo == None
    ensures var g := SecurityGrid(viewer);
      g.Some? && k < |g.value| ==>
        TileClick(Security, expanded, k, g.value[k]).navigateTo == Some("/Security/GuardTraining")
  {
    var g := SecurityGrid(viewer);
    if g.Some? && k < |g.value| {
      assert g.value[k] in SecurityTiles;
    }
  }
}

=== FILE: seqs.dfy ===
/** Generic sequence operations shared by every part of the model: the
    JavaScript `Array.prototype.filter` and `map`, order-preserving
    sub-lists, and the handful of facts about them that the page and
    controller models rely on. */
module Seqs {
  import opened Wrappers

  /** `r` is obtained from `s` by deleting elements, keeping the order. */
  ghost predicate IsSubsequence<T>(r: seq<T>, s: seq<T>)
    decreases |s|
  {
    if r == [] then true
    else if s == [] then false
    else if r[0] == s[0] then IsSubsequence(r[1..], s[1..])
    else IsSubsequence(r, s[1..])
  }

  /** The elements of a sequence, as a set. */
  function Elems<T(!new)>(s: seq<T>): (r: set<T>)
    ensures forall x :: x in r <==> x in s
  {
    set x | x in s
  }

  /** `Array.prototype.filter`: the elements satisfying `p`, in order. */
  function Filter<T(!new)>(s: seq<T>, p: T -> bool): (r: seq<T>)
    ensures |r| <= |s|
    ensures forall x :: x in r <==> x in s && p(x)
    ensures forall i :: 0 <= i < |r| ==> p(r[i])
    ensures IsSubsequence(r, s)
  {
    if s == [] then []
    else if p(s[0]) then [s[0]] + Filter(s[1..], p)
    else Filter(s[1..], p)
  }

  /** `Array.prototype.findIndex`: the first index whose element
      satisfies `p`, if any. */
  function FirstIndex<T>(s: seq<T>, p: T -> bool): (r: Option<nat>)
    ensures r.None? <==> forall i :: 0 <= i < |s| ==> !p(s[i])
    ensures r.Some? ==> r.value < |s| && p(s[r.value])
    ensures r.Some? ==> forall j :: 0 <= j < r.value ==> !p(s[j])
    decreases |s|
  {
    if s == [] then None
    else if p(s[0]) then Some(0)
    else match FirstIndex(s[1..], p)
      case None => None
      case Some(k) => Some(k + 1)
  }

  /** `Array.prototype.map`. */
  function Map<A, B>(s: seq<A>, f: A -> B): (r: seq<B>)
    ensures |r| == |s|
    ensures forall i :: 0 <= i < |s| ==> r[i] == f(s[i])
  {
    seq(|s|, i requires 0 <= i < |s| => f(s[i]))
  }

  /** `Array.prototype.reverse`, as a value. */
  function Reverse<T>(s: seq<T>): (r: seq<T>)
    ensures |r| == |s|
    ensures forall i :: 0 <= i < |s| ==> r[i] == s[|s| - 1 - i]
  {
    seq(|s|, i requires 0 <= i < |s| => s[|s| - 1 - i])
  }

  /** The sequence without its element at index `i`. */
  function RemoveAt<T>(s: seq<T>, i: nat): (r: seq<T>)
    requires i < |s|
    ensures |r| == |s| - 1
    ensures forall j :: 0 <= j < i ==> r[j] == s[j]
    ensures forall j :: i <= j < |r| ==> r[j] == s[j + 1]
  {
    s[..i] + s[i + 1..]
  }

  /** Number of elements satisfying `p`. */
  function Count<T(!new)>(s: seq<T>, p: T -> bool): nat
  {
    |Filter(s, p)|
  }

  lemma {:induction false} FilterAppend<T(!new)>(s: seq<T>, t: seq<T>, p: T -> bool)
    ensures Filter(s + t, p) == Filter(s, p) + Filter(t, p)
    decreases |s|
  {
    if s == [] {
      assert s + t == t;
    } else {
      assert (s + t)[0] == s[0];
      assert (s + t)[1..] == s[1..] + t;
      FilterAppend(s[1..], t, p);
    }
  }

  /** Filtering keeps every copy of a passing element and no copy of any
      other. */
  lemma {:induction false} FilterCounts<T(!new)>(s: seq<T>, p: T -> bool)
    ensures forall x :: multiset(Filter(s, p))[x] == if p(x) then multiset(s)[x] else 0
    decreases |s|
  {
    if s != [] {
      FilterCounts(s[1..], p);
      assert s == [s[0]] + s[1..];
    }
  }

  /** Filtering keeps a sequence whose elements all pass. */
  lemma {:induction false} FilterKeepsAll<T(!new)>(s: seq<T>, p: T -> bool)
    requires forall i :: 0 <= i < |s| ==> p(s[i])
    ensures Filter(s, p) == s
    decreases |s|
  {
    if s != [] {
      FilterKeepsAll(s[1..], p);
      assert [s[0]] + s[1..] == s;
    }
  }

  /** Filtering with a predicate no element satisfies gives the empty list. */
  lemma FilterDropsAll<T(!new)>(s: seq<T>, p: T -> bool)
    requires forall i :: 0 <= i < |s| ==> !p(s[i])
    ensures Filter(s, p) == []
  {
  }

  /** Filtering twice with the same predicate changes nothing more. */
  lemma FilterIdempotent<T(!new)>(s: seq<T>, p: T -> bool)
    ensures Filter(Filter(s, p), p) == Filter(s, p)
  {
    FilterKeepsAll(Filter(s, p), p);
  }

  /** Filtering with two predicates that agree everywhere gives the same
      list. */
  lemma {:induction false} FilterCongruent<T(!new)>(s: seq<T>, p: T -> bool, q: T -> bool)
    requires forall x :: p(x) == q(x)
    ensures Filter(s, p) == Filter(s, q)
    decreases |s|
  {
    if s != [] {
      FilterCongruent(s[1..], p, q);
    }
  }

  /** A weaker predicate keeps at least as much, in the same order. */
  lemma {:induction false} FilterMonotone<T(!new)>(s: seq<T>, p: T -> bool, q: T -> bool)
    requires forall j :: 0 <= j < |s| && p(s[j]) ==> q(s[j])
    ensures IsSubsequence(Filter(s, p), Filter(s, q))
    decreases |s|
  {
    if s != [] {
      FilterMonotone(s[1..], p, q);
      if p(s[0]) {
        assert Filter(s, p)[1..] == Filter(s[1..], p);
      } else if q(s[0]) {
        SubsequenceOfTail(Filter(s, p), Filter(s, q));
      }
    }
  }

  /** Refiltering with `q` changes nothing when every element passing `p`
      also passes `q`. */
  lemma {:induction false} FilterRefined<T(!new)>(s: seq<T>, p: T -> bool, q: T -> bool)
    requires forall j :: 0 <= j < |s| && p(s[j]) ==> q(s[j])
    ensures Filter(Filter(s, p), q) == Filter(s, p)
    decreases |s|
  {
    if s != [] {
      FilterRefined(s[1..], p, q);
    }
  }

  /** Removing the one element that passes `p` but fails `q` is, seen
      through `p`, the same as refiltering with `q`. */
  lemma {:induction false} FilterRemoveAt<T(!new)>(s: seq<T>, i: nat, p: T -> bool, q: T -> bool)
    requires i < |s| && p(s[i]) && !q(s[i])
    requires forall j :: 0 <= j < |s| && j != i && p(s[j]) ==> q(s[j])
    ensures Filter(RemoveAt(s, i), p) == Filter(Filter(s, p), q)
    decreases |s|
  {
    if i == 0 {
      assert RemoveAt(s, i) == s[1..];
      FilterRefined(s[1..], p, q);
    } else {
      assert RemoveAt(s, i) == [s[0]] + RemoveAt(s[1..], i - 1);
      FilterRemoveAt(s[1..], i - 1, p, q);
    }
  }

  /** Filtering with `p` and then with `q` keeps what passes both. */
  lemma {:induction false} FilterFilter<T(!new)>(s: seq<T>, p: T -> bool, q: T -> bool, both: T -> bool)
    requires forall x :: both(x) == (p(x) && q(x))
    ensures Filter(Filter(s, p), q) == Filter(s, both)
    decreases |s|
  {
    if s != [] {
      FilterFilter(s[1..], p, q, both);
      if p(s[0]) {
        var kept := Filter(s, p);
        assert kept[0] == s[0] && kept[1..] == Filter(s[1..], p);
      }
    }
  }

  /** Concatenation is associative. */
  lemma AppendAssoc<T>(x: seq<T>, y: seq<T>, z: seq<T>)
    ensures x + (y + z) == x + y + z
  {
  }

  /** Reversing a list with a new head puts that element last. */
  lemma ReverseCons<T>(x: T, t: seq<T>)
    ensures Reverse([x] + t) == Reverse(t) + [x]
  {
    assert forall i :: 0 <= i < |t| + 1 ==> Reverse([x] + t)[i] == (Reverse(t) + [x])[i];
  }

  /** Filtering commutes with reversal. */
  lemma {:induction false} FilterReverse<T(!new)>(s: seq<T>, p: T -> bool)
    ensures Filter(Reverse(s), p) == Reverse(Filter(s, p))
    decreases |s|
  {
    if s != [] {
      assert s == [s[0]] + s[1..];
      ReverseCons(s[0], s[1..]);
      FilterAppend(Reverse(s[1..]), [s[0]], p);
      FilterReverse(s[1..], p);
      if p(s[0]) {
        ReverseCons(s[0], Filter(s[1..], p));
      }
    }
  }

  lemma {:induction false} ReverseReverse<T>(s: seq<T>)
    ensures Reverse(Reverse(s)) == s
  {
    assert forall i :: 0 <= i < |s| ==> Reverse(Reverse(s))[i] == s[i];
  }

  /** Sub-lists are transitive. */
  lemma {:induction false} SubsequenceTransitive<T>(a: seq<T>, b: seq<T>, c: seq<T>)
    requires IsSubsequence(a, b) && IsSubsequence(b, c)
    ensures IsSubsequence(a, c)
    decreases |c|
  {
    if a != [] && b != [] && c != [] {
      if b[0] == c[0] {
        if a[0] == b[0] {
          SubsequenceTransitive(a[1..], b[1..], c[1..]);
        } else {
          SubsequenceTransitive(a, b[1..], c[1..]);
          SubsequenceOfTail(a, c);
        }
      } else {
        SubsequenceTransitive(a, b, c[1..]);
        SubsequenceOfTail(a, c);
      }
    }
  }

  /** A sub-list of the tail is a sub-list of the whole. */
  lemma {:induction false} SubsequenceOfTail<T>(r: seq<T>, s: seq<T>)
    requires s != [] && IsSubsequence(r, s[1..])
    ensures IsSubsequence(r, s)
    decreases |s|, 0
  {
    if r != [] && r[0] == s[0] {
      SubsequenceDropHead(r, s[1..]);
    }
  }

  /** Dropping the first element of a sub-list keeps it a sub-list. */
  lemma {:induction false} SubsequenceDropHead<T>(r: seq<T>, s: seq<T>)
    requires r != [] && IsSubsequence(r, s)
    ensures IsSubsequence(r[1..], s)
    decreases |s|, 1
  {
    if r[0] == s[0] {
      SubsequenceOfTail(r[1..], s);
    } else {
      SubsequenceDropHead(r, s[1..]);
      SubsequenceOfTail(r[1..], s);
    }
  }

  /** Mapping preserves the sub-list relation. */
  lemma {:induction false} SubsequenceMap<A, B>(r: seq<A>, s: seq<A>, f: A -> B)
    requires IsSubsequence(r, s)
    ensures IsSubsequence(Map(r, f), Map(s, f))
    decreases |s|
  {
    if r != [] {
      assert Map(s, f)[1..] == Map(s[1..], f);
      if r[0] == s[0] {
        assert Map(r, f)[1..] == Map(r[1..], f);
        SubsequenceMap(r[1..], s[1..], f);
      } else {
        SubsequenceMap(r, s[1..], f);
        SubsequenceOfTail(Map(r, f), Map(s, f));
      }
    }
  }
}

=== FILE: session.dfy ===
/** What every page reads from the browser session: the stored token, the
    signed-in user's module grants, and the meaning of an HTTP status. */
module Session {
  import opened Wrappers

  /** The token read from local storage passes the pages' `!token` test:
      it is present and not the empty string. */
  predicate HasToken(token: Option<string>)
  {
    token.Some? && token.value != ""
  }

  /** `response.ok`: a status in the 2xx range. */
  predicate Ok(status: nat)
  {
    200 <= status <= 299
  }

  /** The `registeredModules` field of the signed-in user: missing, a list
      of module names, or some other value that is not an array. */
  datatype ModulesField = Absent | Modules(names: seq<string>) | NotAnArray

  /** The signed-in user, reduced to what the portal's menus read. */
  datatype SignedInUser = SignedInUser(registeredModules: ModulesField)
}

=== FILE: strings.dfy ===
/** The JavaScript string operations the portal's rules are built from:
    `\s` and `trim`, `toLowerCase`, `startsWith`, `includes`,
    `replace(/\s+/g, '_')`, `split`, `padStart` and the decimal
    `toString` of a non-negative integer. */
module Strings {
  import opened Seqs
  import opened Wrappers

  /** ECMAScript WhiteSpace and LineTerminator code points: the class `\s`
      matches and the characters `String.prototype.trim` removes. */
  predicate IsSpace(c: char)
  {
    || c == '\t' || c == '\n' || c == '\U{000B}' || c == '\U{000C}' || c == '\r' || c == ' '
    || c == '\U{00A0}' || c == '\U{1680}' || ('\U{2000}' <= c <= '\U{200A}')
    || c == '\U{2028}' || c == '\U{2029}' || c == '\U{202F}' || c == '\U{205F}'
    || c == '\U{3000}' || c == '\U{FEFF}'
  }

  predicate HasNoSpace(s: string)
  {
    forall i :: 0 <= i < |s| ==> !IsSpace(s[i])
  }

  /** How many whitespace characters `s` starts with. */
  function LeadingSpaces(s: string): (n: nat)
    ensures n <= |s|
    ensures forall i :: 0 <= i < n ==> IsSpace(s[i])
    ensures n < |s| ==> !IsSpace(s[n])
    decreases |s|
  {
    if s != [] && IsSpace(s[0]) then 1 + LeadingSpaces(s[1..]) else 0
  }

  /** How many whitespace characters `s` ends with. */
  function TrailingSpaces(s: string): (n: nat)
    ensures n <= |s|
    ensures forall i :: |s| - n <= i < |s| ==> IsSpace(s[i])
    ensures n < |s| ==> !IsSpace(s[|s| - n - 1])
    decreases |s|
  {
    if s != [] && IsSpace(s[|s| - 1]) then 1 + TrailingSpaces(s[..|s| - 1]) else 0
  }

  /** A string that is not all whitespace has its last non-whitespace
      character at or after its first one. */
  lemma SpacesDoNotOverlap(s: string)
    requires LeadingSpaces(s) < |s|
    ensures LeadingSpaces(s) + TrailingSpaces(s) < |s|
  {
  }

  /** `r` is the slice of `s` starting at `a`, and everything around it is
      whitespace. */
  ghost predicate IsTrimmedSlice(s: string, r: string, a: int)
  {
    && 0 <= a <= |s| - |r|
    && r == s[a..a + |r|]
    && (forall i :: 0 <= i < a ==> IsSpace(s[i]))
    && (forall i :: a + |r| <= i < |s| ==> IsSpace(s[i]))
  }

  /** `String.prototype.trim`: the slice of `s` left once the whitespace
      around it is removed; neither end of it is whitespace. */
  function Trim(s: string): (r: string)
    ensures r == [] || (!IsSpace(r[0]) && !IsSpace(r[|r| - 1]))
    ensures IsTrimmedSlice(s, r, LeadingSpaces(s))
  {
    var a := LeadingSpaces(s);
    if a == |s| then []
    else
      SpacesDoNotOverlap(s);
      s[a..|s| - TrailingSpaces(s)]
  }

  /** A string with no whitespace at either end is its own trim. */
  lemma TrimOfTrimmed(s: string)
    requires s == [] || (!IsSpace(s[0]) && !IsSpace(s[|s| - 1]))
    ensures Trim(s) == s
  {
  }

  lemma TrimIdempotent(s: string)
    ensures Trim(Trim(s)) == Trim(s)
  {
    TrimOfTrimmed(Trim(s));
  }

  /** A string without any whitespace is its own trim. */
  lemma TrimOfSpaceless(s: string)
    requires HasNoSpace(s)
    ensures Trim(s) == s
  {
    TrimOfTrimmed(s);
  }

  /** `toLowerCase`, on the ASCII letters. */
  function LowerChar(c: char): char
  {
    if 'A' <= c <= 'Z' then (c as int + 32) as char else c
  }

  function Lower(s: string): (r: string)
    ensures |r| == |s|
    ensures forall i :: 0 <= i < |s| ==> r[i] == LowerChar(s[i])
  {
    seq(|s|, i requires 0 <= i < |s| => LowerChar(s[i]))
  }

  lemma LowerIdempotent(s: string)
    ensures Lower(Lower(s)) == Lower(s)
  {
  }

  /** `String.prototype.startsWith`. */
  predicate StartsWith(s: string, prefix: string)
  {
    |prefix| <= |s| && s[..|prefix|] == prefix
  }

  /** `String.prototype.includes`: `q` occurs in `s` as a contiguous slice. */
  predicate Contains(s: string, q: string)
  {
    exists i | 0 <= i <= |s| - |q| :: OccursAt(s, q, i)
  }

  predicate OccursAt(s: string, q: string, i: int)
  {
    0 <= i <= |s| - |q| && s[i..i + |q|] == q
  }

  /** Every string includes the empty string. */
  lemma ContainsEmpty(s: string)
    ensures Contains(s, "")
  {
    assert OccursAt(s, "", 0);
  }

  /** Every string includes itself. */
  lemma ContainsSelf(s: string)
    ensures Contains(s, s)
  {
    assert OccursAt(s, s, 0);
  }

  /** A string includes each of the pieces it is glued from. */
  lemma ContainsParts(a: string, b: string)
    ensures Contains(a + b, a) && Contains(a + b, b)
  {
    assert OccursAt(a + b, a, 0);
    assert OccursAt(a + b, b, |a|);
  }

  /** `s.replace(/\s+/g, '_')`: every maximal run of whitespace becomes one
      underscore. */
  function CollapseSpaces(s: string): (r: string)
    ensures HasNoSpace(r)
    ensures |r| <= |s|
    decreases |s|
  {
    if s == [] then []
    else if IsSpace(s[0]) then "_" + CollapseSpaces(s[LeadingSpaces(s)..])
    else [s[0]] + CollapseSpaces(s[1..])
  }

  /** `s` is empty or its last character is not whitespace. */
  predicate EndsVisible(s: string)
  {
    s == [] || !IsSpace(s[|s| - 1])
  }

  /** The whitespace `a` starts with is all the whitespace `a + b` starts
      with, unless `a` is whitespace throughout. */
  lemma {:induction false} LeadingSpacesAppend(a: string, b: string)
    ensures LeadingSpaces(a) < |a| ==> LeadingSpaces(a + b) == LeadingSpaces(a)
    ensures LeadingSpaces(a) == |a| ==> LeadingSpaces(a + b) == |a| + LeadingSpaces(b)
    decreases |a|
  {
    if a == [] {
      assert a + b == b;
    } else {
      assert (a + b)[0] == a[0];
      assert (a + b)[1..] == a[1..] + b;
      LeadingSpacesAppend(a[1..], b);
    }
  }

  /** A string opening with a whitespace run followed by a visible
      character (or nothing) collapses that run to one underscore. */
  lemma CollapseOpeningRun(w: string, b: string)
    requires |w| > 0 && forall i :: 0 <= i < |w| ==> IsSpace(w[i])
    requires b == [] || !IsSpace(b[0])
    ensures CollapseSpaces(w + b) == "_" + CollapseSpaces(b)
  {
    assert LeadingSpaces(b) == 0;
    LeadingSpacesAppend(w, b);
    assert (w + b)[|w|..] == b;
  }

  /** How many characters of `a` the first step of collapsing consumes: a
      whole whitespace run, or one visible character. */
  function HeadLength(a: string): nat
    requires a != []
  {
    if IsSpace(a[0]) then LeadingSpaces(a) else 1
  }

  /** What that first step writes. */
  function HeadOutput(a: string): string
    requires a != []
  {
    if IsSpace(a[0]) then "_" else [a[0]]
  }

  /** Collapsing `a + t`, for `a` ending in a visible character, starts with
      the first step on `a` alone and goes on with the rest of `a`. */
  lemma CollapseHead(a: string, t: string)
    requires a != [] && EndsVisible(a)
    ensures 0 < HeadLength(a) <= |a| && EndsVisible(a[HeadLength(a)..])
    ensures CollapseSpaces(a + t) == HeadOutput(a) + CollapseSpaces(a[HeadLength(a)..] + t)
  {
    var k := HeadLength(a);
    assert (a + t)[0] == a[0];
    if IsSpace(a[0]) {
      LeadingSpacesAppend(a, t);
    }
    assert (a + t)[k..] == a[k..] + t;
  }

  /** No whitespace run crosses the end of a string that ends visibly, so
      its part collapses on its own. */
  lemma {:induction false} CollapseSpacesSplit(a: string, t: string)
    requires EndsVisible(a)
    ensures CollapseSpaces(a + t) == CollapseSpaces(a) + CollapseSpaces(t)
    decreases |a|
  {
    if a == [] {
      assert a + t == t;
    } else {
      var k := HeadLength(a);
      CollapseHead(a, t);
      CollapseHead(a, []);
      assert a + [] == a && a[k..] + [] == a[k..];
      CollapseSpacesSplit(a[k..], t);
      AppendAssoc(HeadOutput(a), CollapseSpaces(a[k..]), CollapseSpaces(t));
    }
  }

  /** A maximal run of whitespace between `a` and `b` becomes exactly one
      underscore, and the two sides are collapsed on their own. */
  lemma CollapseSpacesRun(a: string, w: string, b: string)
    requires |w| > 0 && forall i :: 0 <= i < |w| ==> IsSpace(w[i])
    requires EndsVisible(a)
    requires b == [] || !IsSpace(b[0])
    ensures CollapseSpaces(a + w + b) == CollapseSpaces(a) + "_" + CollapseSpaces(b)
  {
    AppendAssoc(a, w, b);
    CollapseSpacesSplit(a, w + b);
    CollapseOpeningRun(w, b);
    AppendAssoc(CollapseSpaces(a), "_", CollapseSpaces(b));
  }

  /** Characters that survive both whitespace and underscore removal. */
  predicate IsVisible(c: char)
  {
    !IsSpace(c) && c != '_'
  }

  /** Collapsing leaves a whitespace-free string unchanged. */
  lemma {:induction false} CollapseSpacesIdentity(s: string)
    requires HasNoSpace(s)
    ensures CollapseSpaces(s) == s
    decreases |s|
  {
    if s != [] {
      CollapseSpacesIdentity(s[1..]);
      assert [s[0]] + s[1..] == s;
    }
  }

  lemma CollapseSpacesIdempotent(s: string)
    ensures CollapseSpaces(CollapseSpaces(s)) == CollapseSpaces(s)
  {
    CollapseSpacesIdentity(CollapseSpaces(s));
  }

  /** Collapsing only rewrites whitespace: with whitespace and underscores
      erased, the name reads the same before and after. */
  lemma {:induction false} CollapseSpacesKeepsVisible(s: string)
    ensures Filter(CollapseSpaces(s), IsVisible) == Filter(s, IsVisible)
    decreases |s|
  {
    if s != [] {
      if IsSpace(s[0]) {
        var t := s[LeadingSpaces(s)..];
        CollapseSpacesKeepsVisible(t);
        VisibleAfterSpaces(s);
        FilterAppend("_", CollapseSpaces(t), IsVisible);
      } else {
        CollapseSpacesKeepsVisible(s[1..]);
        FilterAppend([s[0]], CollapseSpaces(s[1..]), IsVisible);
        assert s == [s[0]] + s[1..];
        FilterAppend([s[0]], s[1..], IsVisible);
      }
    }
  }

  /** A run of leading whitespace contributes nothing visible. */
  lemma VisibleAfterSpaces(s: string)
    ensures Filter(s, IsVisible) == Filter(s[LeadingSpaces(s)..], IsVisible)
  {
    var k := LeadingSpaces(s);
    assert s == s[..k] + s[k..];
    FilterAppend(s[..k], s[k..], IsVisible);
    FilterDropsAll(s[..k], IsVisible);
  }

  /** Position of the first occurrence of `c` in `s`. */
  function IndexOf(s: string, c: char): (i: nat)
    requires c in s
    ensures i < |s| && s[i] == c && c !in s[..i]
  {
    if s[0] == c then 0 else 1 + IndexOf(s[1..], c)
  }

  /** `parts.join(sep)`. */
  function Join(parts: seq<string>, sep: char): string
    requires |parts| >= 1
  {
    if |parts| == 1 then parts[0] else parts[0] + [sep] + Join(parts[1..], sep)
  }

  /** `s.split(sep)` for a one-character separator: the pieces between
      separators, so joining them back gives `s`. */
  function Split(s: string, sep: char): (parts: seq<string>)
    ensures |parts| >= 1
    ensures forall i :: 0 <= i < |parts| ==> sep !in parts[i]
    ensures Join(parts, sep) == s
    decreases |s|
  {
    if sep !in s then [s]
    else
      var i := IndexOf(s, sep);
      var rest := Split(s[i + 1..], sep);
      var parts := [s[..i]] + rest;
      assert parts[1..] == rest;
      assert s == s[..i] + [sep] + s[i + 1..];
      parts
  }

  /** The first piece runs up to the first separator, or is the whole
      string when there is none; the other pieces split what follows. */
  lemma SplitFirst(s: string, sep: char)
    ensures var parts := Split(s, sep);
      && (sep !in s <==> parts == [s])
      && (sep in s ==>
            && |parts[0]| < |s| && s[..|parts[0]|] == parts[0] && s[|parts[0]|] == sep
            && parts[1..] == Split(s[|parts[0]| + 1..], sep))
  {
    if sep in s {
      var i := IndexOf(s, sep);
      assert Split(s, sep) == [s[..i]] + Split(s[i + 1..], sep);
    }
  }

  /** Splitting undoes joining when no piece contains the separator. */
  lemma {:induction false} SplitJoin(parts: seq<string>, sep: char)
    requires |parts| >= 1
    requires forall i :: 0 <= i < |parts| ==> sep !in parts[i]
    ensures Split(Join(parts, sep), sep) == parts
    decreases |parts|
  {
    if |parts| > 1 {
      SplitCons(parts[0], sep, Join(parts[1..], sep));
      SplitJoin(parts[1..], sep);
      assert [parts[0]] + parts[1..] == parts;
    } else {
      assert Join(parts, sep) == parts[0];
    }
  }

  /** A separator-free piece followed by the separator splits off first. */
  lemma SplitCons(p: string, sep: char, rest: string)
    requires sep !in p
    ensures Split(p + [sep] + rest, sep) == [p] + Split(rest, sep)
  {
    var s := p + [sep] + rest;
    assert s == p + ([sep] + rest);
    IndexOfAfter(p, sep, [sep] + rest);
    assert s[..|p|] == p;
    assert s[|p| + 1..] == rest;
  }

  /** The first `c` in `p + t`, when `p` holds none and `t` starts with
      one, is just after `p`. */
  lemma {:induction false} IndexOfAfter(p: string, c: char, t: string)
    requires c !in p && t != [] && t[0] == c
    ensures c in p + t && IndexOf(p + t, c) == |p|
    decreases |p|
  {
    assert (p + t)[|p|] == c;
    if p != [] {
      assert (p + t)[1..] == p[1..] + t;
      IndexOfAfter(p[1..], c, t);
    }
  }

  /** `s.split(sep)[k]`: `None` stands for JavaScript's `undefined`. */
  function Segment(s: string, sep: char, k: nat): (r: Option<string>)
    ensures r.Some? <==> k < |Split(s, sep)|
    ensures r.Some? ==> sep !in r.value
  {
    var parts := Split(s, sep);
    if k < |parts| then Some(parts[k]) else None
  }

  /** `c` repeated `n` times. */
  function Repeat(c: char, n: nat): (r: string)
    ensures |r| == n
    ensures forall i :: 0 <= i < n ==> r[i] == c
  {
    seq(n, i => c)
  }

  /** `s.padStart(width, c)`: `s` preceded by as many copies of `c` as
      make it `width` long, or `s` itself when it is already that long. */
  function PadStart(s: string, width: nat, c: char): (r: string)
    ensures |r| == if |s| >= width then |s| else width
    ensures r[|r| - |s|..] == s
    ensures forall i :: 0 <= i < |r| - |s| ==> r[i] == c
  {
    if |s| >= width then s else Repeat(c, width - |s|) + s
  }

  predicate IsDigit(c: char)
  {
    '0' <= c <= '9'
  }

  predicate AllDigits(s: string)
  {
    forall i :: 0 <= i < |s| ==> IsDigit(s[i])
  }

  function DigitValue(c: char): nat
    requires IsDigit(c)
  {
    c as int - '0' as int
  }

  function DigitChar(d: nat): (c: char)
    requires d < 10
    ensures IsDigit(c) && DigitValue(c) == d
  {
    ('0' as int + d) as char
  }

  /** The number a string of decimal digits denotes (leading zeros allowed). */
  function DecimalValue(s: string): nat
    requires AllDigits(s)
    decreases |s|
  {
    if s == [] then 0 else 10 * DecimalValue(s[..|s| - 1]) + DigitValue(s[|s| - 1])
  }

  /** `n.toString()` for a non-negative integer: digits only, no leading
      zero, and reading the digits back gives `n`. */
  function NatToDecimal(n: nat): (r: string)
    ensures 1 <= |r| && AllDigits(r)
    ensures DecimalValue(r) == n
    ensures |r| > 1 ==> r[0] != '0'
    decreases n
  {
    if n < 10 then [DigitChar(n)]
    else
      var r := NatToDecimal(n / 10) + [DigitChar(n % 10)];
      assert r[..|r| - 1] == NatToDecimal(n / 10);
      r
  }

  /** Leading zeros do not change a decimal value. */
  lemma {:induction false} LeadingZeros(k: nat, s: string)
    requires AllDigits(s)
    ensures AllDigits(Repeat('0', k) + s)
    ensures DecimalValue(Repeat('0', k) + s) == DecimalValue(s)
    decreases |s|, k
  {
    var z := Repeat('0', k);
    if s == [] {
      assert z + s == z;
      if k > 0 {
        assert z[..k - 1] == Repeat('0', k - 1);
        LeadingZeros(k - 1, s);
        assert Repeat('0', k - 1) + s == Repeat('0', k - 1);
      }
    } else {
      var init := s[..|s| - 1];
      LeadingZeros(k, init);
      assert (z + s)[..|z + s| - 1] == z + init;
    }
  }

  function Pow10(k: nat): nat
  {
    if k == 0 then 1 else 10 * Pow10(k - 1)
  }

  /** `n.toString().padStart(width, '0')`, built digit by digit from the
      right: digits only, denoting `n`, at least `width` long, and exactly
      `width` long when `n` fits in that many digits. */
  function PaddedDecimal(n: nat, width: nat): (r: string)
    ensures AllDigits(r) && 1 <= |r| && width <= |r|
    ensures DecimalValue(r) == n
    ensures 1 <= width && n < Pow10(width) ==> |r| == width
    decreases n + width
  {
    if n < 10 && width <= 1 then [DigitChar(n)]
    else
      var rest := PaddedDecimal(n / 10, if width == 0 then 0 else width - 1);
      var r := rest + [DigitChar(n % 10)];
      assert r[..|r| - 1] == rest;
      r
  }

  /** Appending a character after padding is padding one wider. */
  lemma PadStartSnoc(x: string, width: nat, c: char, d: char)
    ensures PadStart(x, width, c) + [d] == PadStart(x + [d], width + 1, c)
  {
    if |x| < width {
      assert Repeat(c, width - |x|) + x + [d] == Repeat(c, width - |x|) + (x + [d]);
    }
  }

  /** The digit-by-digit construction is the library's `padStart` of the
      plain decimal string. */
  lemma {:induction false} PaddedDecimalIsPadStart(n: nat, width: nat)
    ensures PaddedDecimal(n, width) == PadStart(NatToDecimal(n), width, '0')
    decreases n + width
  {
    if n >= 10 {
      var w := if width == 0 then 0 else width - 1;
      PaddedDecimalIsPadStart(n / 10, w);
      PaddedLongStep(n, width);
    } else if width >= 2 {
      PaddedDecimalIsPadStart(0, width - 1);
      PaddedShortStep(n, width);
    }
  }

  lemma PaddedLongStep(n: nat, width: nat)
    requires n >= 10
    requires var w := if width == 0 then 0 else width - 1;
      PaddedDecimal(n / 10, w) == PadStart(NatToDecimal(n / 10), w, '0')
    ensures PaddedDecimal(n, width) == PadStart(NatToDecimal(n), width, '0')
  {
    var w := if width == 0 then 0 else width - 1;
    PadStartSnoc(NatToDecimal(n / 10), w, '0', DigitChar(n % 10));
  }

  lemma PaddedShortStep(n: nat, width: nat)
    requires n < 10 && width >= 2
    requires PaddedDecimal(0, width - 1) == PadStart(NatToDecimal(0), width - 1, '0')
    ensures PaddedDecimal(n, width) == PadStart(NatToDecimal(n), width, '0')
  {
    calc {
      PaddedDecimal(n, width);
      { PaddedSingleDigit(n, width); }
      PaddedDecimal(0, width - 1) + [DigitChar(n)];
      PadStart(NatToDecimal(0), width - 1, '0') + [DigitChar(n)];
      { ZeroPadded(width - 1); }
      Repeat('0', width - 1) + [DigitChar(n)];
      { SingleDigitPadded(n, width); }
      PadStart(NatToDecimal(n), width, '0');
    }
  }

  /** A one-digit number padded to `width` is `width - 1` zeros and the
      digit. */
  lemma SingleDigitPadded(n: nat, width: nat)
    requires n < 10 && width >= 2
    ensures PadStart(NatToDecimal(n), width, '0') == Repeat('0', width - 1) + [DigitChar(n)]
  {
    assert NatToDecimal(n) == [DigitChar(n)];
  }

  lemma PaddedSingleDigit(n: nat, width: nat)
    requires n < 10 && width >= 2
    ensures PaddedDecimal(n, width) == PaddedDecimal(0, width - 1) + [DigitChar(n)]
  {
    assert n / 10 == 0 && n % 10 == n;
  }

  /** Zero padded with zeros is all zeros. */
  lemma ZeroPadded(width: nat)
    requires width >= 1
    ensures PadStart(NatToDecimal(0), width, '0') == Repeat('0', width)
  {
    assert NatToDecimal(0) == ['0'];
    if width >= 2 {
      assert Repeat('0', width - 1) + ['0'] == Repeat('0', width);
    }
  }
}

=== FILE: tasks.dfy ===
/** The task controller: adding a task with every field required, listing
    tasks filtered by zone and branch with "All" as a wildcard, and
    reading, updating and deleting one task by id. The database is a list
    of tasks in insertion order; a failing database call is a parameter. */
module Tasks {
  import opened Wrappers
  import opened Seqs

  /** A request body field passes the controller's `!field` test: it is
      present and not the empty string. */
  predicate Given(field: Option<string>)
  {
    field.Some? && field.value != ""
  }

  /** The fields a request body may carry; each may be missing. */
  datatype TaskInput = TaskInput(taskName: Option<string>, date: Option<string>, deadline: Option<string>,
                                 zone: Option<string>, branch: Option<string>)

  /** A stored task. */
  datatype Task = Task(id: nat, taskName: string, date: string, deadline: string, zone: string, branch: string)

  /** The task collection and the next id it hands out. */
  datatype TaskDb = TaskDb(tasks: seq<Task>, nextId: nat)

  /** What a handler answers. */
  datatype Reply =
    | Created(task: Task)
    | Listed(tasks: seq<Task>)
    | Found(task: Task)
    | Updated(task: Task)
    | Removed
    | MissingFields
    | NotFound
    | ServerError

  function Status(r: Reply): (code: nat)
    ensures code == 400 <==> r.MissingFields?
    ensures code == 404 <==> r.NotFound?
    ensures code == 500 <==> r.ServerError?
  {
    match r
    case Created(_) => 201
    case Listed(_) => 200
    case Found(_) => 200
    case Updated(_) => 200
    case Removed => 200
    case MissingFields => 400
    case NotFound => 404
    case ServerError => 500
  }

  datatype Outcome = Outcome(reply: Reply, db: TaskDb)

  /** Ids are unique and below the next id. */
  predicate Valid(db: TaskDb)
  {
    && (forall i :: 0 <= i < |db.tasks| ==> db.tasks[i].id < db.nextId)
    && (forall i, j :: 0 <= i < j < |db.tasks| ==> db.tasks[i].id != db.tasks[j].id)
  }

  /** The index of the task with this id, if any. */
  function FindTask(tasks: seq<Task>, id: nat): (r: Option<nat>)
    ensures r.None? <==> forall i :: 0 <= i < |tasks| ==> tasks[i].id != id
    ensures r.Some? ==> r.value < |tasks| && tasks[r.value].id == id
    ensures r.Some? ==> forall j :: 0 <= j < r.value ==> tasks[j].id != id
    decreases |tasks|
  {
    if |tasks| == 0 then None
    else if tasks[0].id == id then Some(0)
    else match FindTask(tasks[1..], id)
      case None => None
      case Some(i) => Some(i + 1)
  }

  // ---------------------------------------------------------------------
  // Adding

  predicate AllGiven(input: TaskInput)
  {
    Given(input.taskName) && Given(input.date) && Given(input.deadline) && Given(input.zone) && Given(input.branch)
  }

  /** `addTask`: 400 and nothing saved unless all five fields are given;
      otherwise the task is saved with a fresh id and answered with 201,
      or the save fails and the answer is 500. */
  function AddTask(db: TaskDb, input: TaskInput, saveOk: bool): (out: Outcome)
    ensures out.reply.MissingFields? <==> !AllGiven(input)
    ensures out.reply.Created? <==> AllGiven(input) && saveOk
    ensures !out.reply.Created? ==> out.db == db && (out.reply.MissingFields? || out.reply.ServerError?)
    ensures out.reply.Created? ==>
      && out.db.tasks == db.tasks + [out.reply.task]
      && out.reply.task == Task(db.nextId, input.taskName.value, input.date.value, input.deadline.value,
                                input.zone.value, input.branch.value)
  {
    if !AllGiven(input) then Outcome(MissingFields, db)
    else if !saveOk then Outcome(ServerError, db)
    else
      var task := Task(db.nextId, input.taskName.value, input.date.value, input.deadline.value,
                       input.zone.value, input.branch.value);
      Outcome(Created(task), TaskDb(db.tasks + [task], db.nextId + 1))
  }

  /** Every stored task has all five fields non-empty when the store only
      ever grew through `AddTask`. */
  predicate Complete(t: Task)
  {
    t.taskName != "" && t.date != "" && t.deadline != "" && t.zone != "" && t.branch != ""
  }

  lemma AddTaskKeepsValid(db: TaskDb, input: TaskInput, saveOk: bool)
    requires Valid(db)
    ensures Valid(AddTask(db, input, saveOk).db)
    ensures AddTask(db, input, saveOk).reply.Created? ==> Complete(AddTask(db, input, saveOk).reply.task)
  {
  }

  // ---------------------------------------------------------------------
  // Listing

  /** The filter built from one query parameter: it constrains only when
      the parameter is given and not "All". */
  function Constraint(param: Option<string>): (c: Option<string>)
    ensures c.Some? <==> Given(param) && param.value != "All"
    ensures c.Some? ==> c == param
  {
    if Given(param) && param.value != "All" then param else None
  }

  /** A task passes a constraint when there is none or its value equals it. */
  predicate Meets(c: Option<string>, value: string)
  {
    c.None? || c.value == value
  }

  function TaskFilter(zone: Option<string>, branch: Option<string>): Task -> bool
  {
    (t: Task) => Meets(Constraint(zone), t.zone) && Meets(Constraint(branch), t.branch)
  }

  /** `getAllTasks`: the stored tasks passing the zone and branch
      constraints, in store order, or 500 when the query fails. */
  function GetAllTasks(db: TaskDb, zone: Option<string>, branch: Option<string>, findOk: bool): (r: Reply)
    ensures r.Listed? <==> findOk
    ensures !findOk ==> r.ServerError?
    ensures r.Listed? ==> IsSubsequence(r.tasks, db.tasks)
    ensures r.Listed? ==> forall t :: t in r.tasks <==>
      t in db.tasks && (Constraint(zone).Some? ==> t.zone == zone.value)
      && (Constraint(branch).Some? ==> t.branch == branch.value)
    ensures r.Listed? ==> forall t :: t in r.tasks ==> multiset(r.tasks)[t] == multiset(db.tasks)[t]
  {
    FilterCounts(db.tasks, TaskFilter(zone, branch));
    if findOk then Listed(Filter(db.tasks, TaskFilter(zone, branch))) else ServerError
  }

  /** With no usable zone or branch every task is listed. */
  lemma WildcardListsAll(db: TaskDb, zone: Option<string>, branch: Option<string>)
    requires !Given(zone) || zone.value == "All"
    requires !Given(branch) || branch.value == "All"
    ensures GetAllTasks(db, zone, branch, true) == Listed(db.tasks)
  {
    FilterKeepsAll(db.tasks, TaskFilter(zone, branch));
  }

  /** The two constraints are independent: filtering by both is filtering
      by zone alone, then by branch alone. */
  lemma {:induction false} ConstraintsCompose(tasks: seq<Task>, zone: Option<string>, branch: Option<string>)
    ensures Filter(tasks, TaskFilter(zone, branch))
         == Filter(Filter(tasks, TaskFilter(zone, None)), TaskFilter(None, branch))
    decreases |tasks|
  {
    if tasks != [] {
      ConstraintsCompose(tasks[1..], zone, branch);
    }
  }

  /** A task added through `AddTask` is listed exactly when it passes the
      filter, after everything listed before. */
  lemma ListAfterAdd(db: TaskDb, input: TaskInput, zone: Option<string>, branch: Option<string>)
    requires AllGiven(input)
    ensures var out := AddTask(db, input, true);
      GetAllTasks(out.db, zone, branch, true).tasks ==
        GetAllTasks(db, zone, branch, true).tasks
        + (if TaskFilter(zone, branch)(out.reply.task) then [out.reply.task] else [])
  {
    var out := AddTask(db, input, true);
    FilterAppend(db.tasks, [out.reply.task], TaskFilter(zone, branch));
  }

  // ---------------------------------------------------------------------
  // Reading, updating, deleting

  /** `getTaskById`: the task, 404 when no task has the id, 500 when the
      query fails. */
  function GetTaskById(db: TaskDb, id: nat, findOk: bool): (r: Reply)
    ensures !findOk <==> r.ServerError?
    ensures findOk ==> (r.NotFound? <==> forall i :: 0 <= i < |db.tasks| ==> db.tasks[i].id != id)
    ensures findOk && (exists i :: 0 <= i < |db.tasks| && db.tasks[i].id == id) ==> r.Found?
    ensures r.Found? ==> r.task in db.tasks && r.task.id == id
  {
    if !findOk then ServerError
    else match FindTask(db.tasks, id)
      case None => NotFound
      case Some(i) => Found(db.tasks[i])
  }

  /** A field of the update keeps the stored value when it is missing from
      the body. */
  function Merge(field: Option<string>, stored: string): string
  {
    if field.Some? then field.value else stored
  }

  /** The stored task after an update with `input`: every field the body
      carries replaces the stored one, every other field and the id stay. */
  function Apply(t: Task, input: TaskInput): (r: Task)
    ensures r.id == t.id
    ensures input.taskName.Some? ==> r.taskName == input.taskName.value
    ensures input.date.Some? ==> r.date == input.date.value
    ensures input.deadline.Some? ==> r.deadline == input.deadline.value
    ensures input.zone.Some? ==> r.zone == input.zone.value
    ensures input.branch.Some? ==> r.branch == input.branch.value
    ensures input.taskName.None? ==> r.taskName == t.taskName
    ensures input.date.None? ==> r.date == t.date
    ensures input.deadline.None? ==> r.deadline == t.deadline
    ensures input.zone.None? ==> r.zone == t.zone
    ensures input.branch.None? ==> r.branch == t.branch
  {
    Task(t.id, Merge(input.taskName, t.taskName), Merge(input.date, t.date), Merge(input.deadline, t.deadline),
         Merge(input.zone, t.zone), Merge(input.branch, t.branch))
  }

  /** `updateTask`: the first task with the id gets the body's fields and
      the answer carries the record after the update; 404 and no change when
      no task has the id; 500 and no change when the call fails. */
  function UpdateTask(db: TaskDb, id: nat, input: TaskInput, updateOk: bool): (out: Outcome)
    ensures !updateOk <==> out.reply.ServerError?
    ensures updateOk ==> (out.reply.NotFound? <==> forall i :: 0 <= i < |db.tasks| ==> db.tasks[i].id != id)
    ensures updateOk && (exists i :: 0 <= i < |db.tasks| && db.tasks[i].id == id) ==> out.reply.Updated?
    ensures !out.reply.Updated? ==> out.db == db
    ensures out.reply.Updated? ==>
      exists i :: 0 <= i < |db.tasks| && db.tasks[i].id == id
        && out.reply.task == Apply(db.tasks[i], input) && out.db.tasks == db.tasks[i := out.reply.task]
    ensures out.db.nextId == db.nextId && |out.db.tasks| == |db.tasks|
  {
    if !updateOk then Outcome(ServerError, db)
    else match FindTask(db.tasks, id)
      case None => Outcome(NotFound, db)
      case Some(i) =>
        var updated := Apply(db.tasks[i], input);
        Outcome(Updated(updated), TaskDb(db.tasks[i := updated], db.nextId))
  }

  /** `deleteTask`: the first task with the id is removed and nothing
      else; 404 and no change when no task has the id; 500 and no change
      when the call fails. */
  function DeleteTask(db: TaskDb, id: nat, deleteOk: bool): (out: Outcome)
    ensures !deleteOk <==> out.reply.ServerError?
    ensures deleteOk ==> (out.reply.NotFound? <==> forall i :: 0 <= i < |db.tasks| ==> db.tasks[i].id != id)
    ensures deleteOk && (exists i :: 0 <= i < |db.tasks| && db.tasks[i].id == id) ==> out.reply.Removed?
    ensures !out.reply.Removed? ==> out.db == db
    ensures out.reply.Removed? ==>
      exists i :: 0 <= i < |db.tasks| && db.tasks[i].id == id
        && out.db.tasks == RemoveAt(db.tasks, i)
    ensures out.db.nextId == db.nextId
  {
    if !deleteOk then Outcome(ServerError, db)
    else match FindTask(db.tasks, id)
      case None => Outcome(NotFound, db)
      case Some(i) => Outcome(Removed, TaskDb(RemoveAt(db.tasks, i), db.nextId))
  }

  /** Updates keep ids unique. */
  lemma UpdateKeepsValid(db: TaskDb, id: nat, input: TaskInput, updateOk: bool)
    requires Valid(db)
    ensures Valid(UpdateTask(db, id, input, updateOk).db)
  {
  }

  /** Deletes keep ids unique. */
  lemma DeleteKeepsValid(db: TaskDb, id: nat, deleteOk: bool)
    requires Valid(db)
    ensures Valid(DeleteTask(db, id, deleteOk).db)
  {
  }

  /** A created task is found by its id. */
  lemma AddThenGet(db: TaskDb, input: TaskInput)
    requires Valid(db) && AllGiven(input)
    ensures var out := AddTask(db, input, true);
      GetTaskById(out.db, db.nextId, true) == Found(out.reply.task)
  {
    var out := AddTask(db, input, true);
    var k := FindTask(out.db.tasks, db.nextId);
    assert out.db.tasks[|db.tasks|].id == db.nextId;
    assert k.Some?;
    assert k.value == |db.tasks|;
  }

  /** Reading after an update returns the record the update answered with. */
  lemma UpdateThenGet(db: TaskDb, id: nat, input: TaskInput)
    requires Valid(db)
    ensures var out := UpdateTask(db, id, input, true);
      out.reply.Updated? ==> GetTaskById(out.db, id, true) == Found(out.reply.task)
  {
    var out := UpdateTask(db, id, input, true);
    if out.reply.Updated? {
      var i :| 0 <= i < |db.tasks| && db.tasks[i].id == id
        && out.reply.task == Apply(db.tasks[i], input) && out.db.tasks == db.tasks[i := out.reply.task];
      assert out.db.tasks[i].id == id;
      var k := FindTask(out.db.tasks, id);
      assert k.value == i;
    }
  }

  /** Applying the same body twice is applying it once. */
  lemma ApplyIdempotent(t: Task, input: TaskInput)
    ensures Apply(Apply(t, input), input) == Apply(t, input)
  {
  }

  /** Sending the same update twice is the same as sending it once. */
  lemma UpdateIdempotent(db: TaskDb, id: nat, input: TaskInput)
    ensures var once := UpdateTask(db, id, input, true);
      UpdateTask(once.db, id, input, true) == once
  {
    var once := UpdateTask(db, id, input, true);
    match FindTask(db.tasks, id)
    case None =>
    case Some(i) =>
      ApplyIdempotent(db.tasks[i], input);
      assert once.db.tasks == db.tasks[i := Apply(db.tasks[i], input)];
      assert once.db.tasks[i].id == id;
      assert forall j :: 0 <= j < i ==> once.db.tasks[j] == db.tasks[j];
      var k := FindTask(once.db.tasks, id);
      assert k == Some(i);
  }

  /** After a delete the id is gone, so reading it answers 404. */
  lemma DeleteThenGet(db: TaskDb, id: nat)
    requires Valid(db)
    ensures var out := DeleteTask(db, id, true);
      GetTaskById(out.db, id, true) == NotFound
  {
    var out := DeleteTask(db, id, true);
    if out.reply.Removed? {
      var i :| 0 <= i < |db.tasks| && db.tasks[i].id == id && out.db.tasks == RemoveAt(db.tasks, i);
      forall j | 0 <= j < |out.db.tasks|
        ensures out.db.tasks[j].id != id
      {
        if j < i {
          assert out.db.tasks[j] == db.tasks[j];
        } else {
          assert out.db.tasks[j] == db.tasks[j + 1];
        }
      }
    }
  }
}

=== FILE: wrappers.dfy ===
/** Optional values: `None` stands for JavaScript's `undefined`/`null`. */
module Wrappers {

  datatype Option<+T> = None | Some(value: T)
}
